=== FILE: README.md ===
# Autonomous delivery agent — a Dafny model

This project models the core of a grid-world delivery agent. It has three parts.

- **The world.** A rectangular grid with static obstacle cells and per-cell terrain costs: road 1, grass 3, mud 5, water 10.
  - Moving obstacles cycle along fixed paths at a given speed.
  - A cell can be entered at a future time step only if it is inside the grid, not blocked, and no moving obstacle is predicted to stand on it then.
  - A line-oriented text format saves and loads a grid.
- **The planners.** Four planners search over states keyed by position and time step:
  - breadth-first search;
  - uniform-cost search;
  - A* with the Manhattan heuristic;
  - a simulated-annealing refiner that perturbs one interior waypoint of an A* route at a time.

  A result is a chain of search nodes linked to their parents.
- **The agent.** It plans a leg to a point and follows it one step at a time. Each step:
  - pays the terrain cost of the cell entered in fuel;
  - advances the moving obstacles;
  - picks up a package lying on that cell.

  A mission visits every package position and then every destination.

Modules, one per file, follow the program's structure:

| file | module | contents |
|---|---|---|
| `basics.dfy` | `Basics` | `Option` and three arithmetic facts |
| `environment.dfy` | `Environment` | terrain, directions, moving obstacles, the grid and its operations |
| `gridformat.dfy` | `GridFormat` | the save/load line format, with its round trip |
| `nodes.dfy` | `Nodes` | search nodes, their order and equality, path reconstruction, Manhattan distance, walks and their costs |
| `heapq.dfy` | `HeapQueue` | the binary heap of Python's `heapq` module: push, pop and the two sift routines |
| `search.dfy` | `Search` | expansion, breadth-first search, best-first search (UCS and A*), and the three planners' entry points |
| `annealing.dfy` | `Annealing` | the simulated-annealing planner |
| `agent.dfy` | `Agent` | the delivery agent: planning a leg, executing a step, travelling a leg, the mission |

Representation choices:

- numpy matrices become `seq<seq<int>>` indexed `[y][x]`, and Python lists become sequences.
- Every object that Python mutates is an immutable datatype. An operation returns the updated value.
- Python's random draws come from an `Oracle` value:
  - `randint` becomes a pick;
  - `shuffle` becomes a direction order;
  - the Metropolis draw `random.random()` becomes an acceptance coin.

  A mission gives each leg its own oracle, because the generator's state carries over from one leg to the next.
- `heapq` is not part of this repository. `HeapQueue` follows the algorithm of CPython's `heapq` module, so the best-first planners pop equal-priority entries in the same order as the source.
- A loaded file is a sequence of lines. Each line is a sequence of integer tokens.

## Model

| member | source | states |
|---|---|---|
| `Environment.TerrainRoundTrip` | src/environment.py:10-15 | Each terrain kind is recovered from its cost value, and every cost is a terrain value of at least the road cost 1. |
| `Environment.TerrainOf` | src/environment.py:10-15 | Looking up a terrain kind by value gives only a kind with that cost value. |
| `Environment.NewObstacle` | src/environment.py:41-56 | A new moving obstacle keeps its position, path and speed, and starts at path index 0 with a zero step counter. |
| `Environment.Move` | src/environment.py:58-64 | A move keeps the path and speed. A tick that brings the counter to the speed resets the counter, and the obstacle stands on the path cell of the new index, which is in range, even on a one-waypoint path. A tick short of the speed only counts: index and position stay. A move preserves the invariant that the index is in range and the counter is below the speed. |
| `Environment.MovesClosedForm` | src/environment.py:58-64 | After n moves the counter is (counter + n) mod speed and the index has advanced by (counter + n) div speed modulo the path length. So the obstacle moves once every `speed` ticks. |
| `Environment.UnitSpeedIndex` | src/environment.py:58-64 | At speed 1 every move advances the index, so after n moves it has advanced by n modulo the path length. |
| `Environment.PositionAt` | src/environment.py:66-77 | A predicted position always lies on the obstacle's path. |
| `Environment.PositionAtNow` | src/environment.py:66-77 | At time 0 the prediction is the path cell of the current index. |
| `Environment.PositionAtPeriodic` | src/environment.py:66-77 | The prediction is periodic with period equal to the path length, for any integer time and any whole number of periods. |
| `Environment.PredictionMatchesUnitSpeed` | src/environment.py:58-77 | At speed 1, predicting t steps ahead after n real moves equals predicting n + t steps ahead now: predictor and stepper agree. |
| `Environment.PredictionIgnoresSpeed` | src/environment.py:58-77 | With speed above 1 and the counter short of it, one real move leaves the obstacle in place, yet the predictor already places it on the next path cell. |
| `Environment.NewGrid` | src/environment.py:82-94 | A grid can be built exactly when neither dimension is negative. The result is well formed with the given size, has no moving obstacles, and every cell is free road. |
| `Environment.MoverAtIff` | src/environment.py:116-120 | The scan over moving obstacles reports a hit exactly when some obstacle's predicted position is the cell. |
| `Environment.IsValidIff` | src/environment.py:96-122 | A cell outside the grid is never enterable. A static obstacle cell is never enterable. Any other cell is enterable exactly when no moving obstacle is predicted on it at that time. |
| `Environment.GetCost` | src/environment.py:124-135 | On a well-formed grid the cost of a cell is one of the four terrain values, so at least 1. |
| `Environment.AddObstacle` | src/environment.py:137-145 | Exactly the addressed cell becomes an obstacle, with numpy's wrap for negative indices. Terrain, size and moving obstacles are unchanged, and well-formedness is kept. |
| `Environment.AddObstacleBlocksOnlyThatCell` | src/environment.py:137-145 | After adding an obstacle, that cell is never enterable, every other cell is enterable exactly as before, and the cell's cost is unchanged. |
| `Environment.SetTerrain` | src/environment.py:147-156 | Afterwards the cell costs the kind's value. Every other cell's terrain, all occupancy and the moving obstacles are unchanged, and well-formedness is kept. |
| `Environment.AddMovingObstacle` | src/environment.py:158-165 | The obstacle is appended and the static layers are unchanged. |
| `Environment.AddMovingObstacleValidity` | src/environment.py:158-165 | After adding an obstacle, a cell is enterable exactly when it was before and the new obstacle is not predicted on it. |
| `Environment.UpdateMovingObstacles` | src/environment.py:167-170 | Every moving obstacle takes one move and nothing else changes. Well-formedness and each obstacle's invariant are kept. |
| `GridFormat.RowObstacles` | src/environment.py:229-232 | The positions collected from one row are exactly that row's obstacle cells. |
| `GridFormat.ObstaclesOf` | src/environment.py:228-236 | The saved obstacle list holds exactly the obstacle cells of the grid. |
| `GridFormat.Flatten` | src/environment.py:246-248 | A saved path lists each waypoint's x then y, in order. |
| `GridFormat.AddObstacles` | src/environment.py:190-194 | Loading obstacle lines changes only occupancy and keeps the layers' shape. |
| `GridFormat.AddObstaclesEffect` | src/environment.py:190-194 | Loading in-grid obstacle lines succeeds and blocks exactly the listed cells on top of the existing ones. |
| `GridFormat.SetTerrainRow` | src/environment.py:197-201 | Loading a terrain row changes only terrain and keeps the layers' shape. |
| `GridFormat.SetTerrainRowEffect` | src/environment.py:197-201 | A row of valid terrain values loads and sets exactly that row's cells to the listed values. |
| `GridFormat.SetTerrainRows` | src/environment.py:196-201 | Loading all terrain rows changes only terrain and keeps the layers' shape. |
| `GridFormat.SetTerrainRowsEffect` | src/environment.py:196-201 | A full matrix of valid terrain values loads into exactly that terrain. |
| `GridFormat.ParseMover` | src/environment.py:206-213 | A parsed moving obstacle restarts at index 0 with a zero counter. Its position is the first two tokens, its path has the declared number of waypoints (none when negative), and its speed is one of the line's tokens. |
| `GridFormat.ParseEncodedMover` | src/environment.py:206-213 | A saved moving-obstacle line parses back to the same obstacle, restarted. |
| `GridFormat.AddMovers` | src/environment.py:203-214 | Loading moving-obstacle lines appends exactly the declared number of obstacles and keeps the static layers. |
| `GridFormat.AddMoversEffect` | src/environment.py:203-214 | Lines that encode obstacles load back as exactly those obstacles, restarted, in order. |
| `GridFormat.LoadLayers` | src/environment.py:172-201 | A successful load of the static part has the declared width and height and well-shaped layers of terrain values. |
| `GridFormat.Decode` | src/environment.py:172-214 | A successful load gives well-shaped layers with the declared dimensions. |
| `GridFormat.Restarted` | src/environment.py:207-213 | A reloaded obstacle keeps position, path and speed, and restarts its index and counter. |
| `GridFormat.EncodeLayout` | src/environment.py:216-249 | A saved grid has the documented line layout: dimensions, obstacle count and positions, terrain rows, then moving-obstacle count and lines. |
| `GridFormat.LayersOfLaid` | src/environment.py:172-201 | Lines in that layout load back the grid's static layers exactly. |
| `GridFormat.DecodeLaid` | src/environment.py:172-214 | Lines in that layout load back the whole grid, with every moving obstacle restarted. |
| `GridFormat.DecodeEncode` | src/environment.py:172-249 | Loading what was saved gives the same width, height, obstacle cells, terrain and moving obstacles (path, speed, position), each restarted at index 0. |
| `Nodes.NodeOrderAndEquality` | src/planners.py:33-43 | The heap order by cost is a strict weak order. Node equality is equality of the hashed key (position, time step). |
| `Nodes.Manhattan` | src/planners.py:88-100 | The distance is non-negative and zero exactly when the points coincide. |
| `Nodes.ManhattanMetric` | src/planners.py:88-100 | The distance is symmetric and satisfies the triangle inequality. |
| `Nodes.AdjacentIffStep` | src/environment.py:26-36 | Two cells are at distance 1 exactly when one is a single move up, down, left or right from the other. |
| `Nodes.GetPath` | src/planners.py:45-57 | The path has one position per node of the chain, starting at the root's position and ending at the node's own. |
| `Nodes.ReconstructPath` | src/planners.py:45-57 | Collecting positions up the parent links and reversing yields the root-to-node path. |
| `Nodes.PathCostSnoc` | src/planners.py:197-198 | Extending a walk by a cell adds that cell's terrain cost. |
| `Nodes.EnterableInBounds` | src/environment.py:108-110 | Every cell of an enterable walk is inside the grid. |
| `Nodes.PathCostAtLeastMoves` | src/planners.py:256-257 | On a well-formed grid a walk costs at least its number of moves. |
| `Nodes.ManhattanAdmissible` | src/planners.py:88-100 | The Manhattan distance between a walk's ends is at most its number of moves and at most its terrain cost. |
| `Nodes.ChainIsWalk` | src/planners.py:147-156 | A chain whose every child is one step from its parent, one time step later and enterable then, has a path that is a valid walk from the root at the root's time. |
| `Nodes.CostAccountedIsPathCost` | src/planners.py:197-202 | If every child's cost is its parent's cost plus the child cell's terrain cost, a node's cost is the terrain cost of its path. |
| `Nodes.HopCountedIsMoves` | src/planners.py:155 | If every child costs its parent's cost plus one, a node's cost is the number of moves on its path. |
| `Search.ChildPlanned` | src/planners.py:147-156 | A child of a properly formed chain node is itself properly formed and rooted at the start. |
| `Search.Expand` | src/planners.py:147-156 | Every child is a proper successor that was unvisited, and each is marked visited as it is queued. Every enterable successor ends up visited. |
| `Search.ExpandAllVisitsSuccessors` | src/planners.py:147-156 | Expanding in all four directions leaves every enterable successor state visited. |
| `Search.WalkReachesExpanded` | src/planners.py:141-156 | When every visited state below a time limit has been expanded, every state of a valid walk below that limit has been expanded. |
| `Search.ShortWalksMissGoal` | src/planners.py:141-156 | If no expanded state is the goal, no valid walk that ends before the limit reaches the goal. |
| `Search.FrontierInit` | src/planners.py:134-139 | The initial queue and visited set satisfy the search invariant. |
| `Search.FrontierStep` | src/planners.py:141-156 | Popping a non-goal state and queuing its children keeps the search invariant. |
| `Search.FrontierExhausted` | src/planners.py:141-158 | When the queue empties, no valid walk from the start reaches the goal, so "no path" is correct. |
| `Search.LevelOrderedStep` | src/planners.py:141-156 | FIFO order keeps the queue sorted by time step, spanning at most two levels. |
| `Search.LevelOrderedFoundIsShortest` | src/planners.py:141-145 | The goal popped from a level-ordered queue has a path no longer than any valid walk to the goal. |
| `Search.BreadthFirst` | src/planners.py:134-158 | A found node is a proper move-counted chain from the start ending at the goal, with the fewest moves of any valid walk. "No path" means no valid walk reaches the goal. Start equals goal gives the root node. |
| `HeapQueue.RootLeast` | src/planners.py:186 | No entry of a heap is less than its root. |
| `HeapQueue.SiftDown` | src/planners.py:263 | Moving an entry towards the root while it is less than its parent turns the one disorder at that entry into a heap, with the same entries. |
| `HeapQueue.SiftUp` | src/planners.py:245 | Sending the root down along the smaller child (the right one unless the left is strictly less) and sifting it back up turns a heap with a misplaced root into a heap, with the same entries. |
| `HeapQueue.HeapPush` | src/planners.py:203 | A push leaves a heap holding the old entries and the new one. |
| `HeapQueue.HeapPop` | src/planners.py:245 | A pop returns the root, which no entry is less than, and leaves a heap holding exactly the other entries. |
| `HeapQueue.HeapPushAll` | src/planners.py:252-263 | Pushing the children one after another leaves a heap of the old entries and all the children. |
| `Search.FrontierPermuted` | src/planners.py:241-263 | The search invariant depends only on which states are queued, not on their places in the heap. |
| `Search.PopOrderedPermuted` | src/planners.py:241-263 | The pop-order invariant depends only on which states are queued. |
| `Search.FrontierPopRoot` | src/planners.py:244-263 | Popping a non-goal root and queuing its children keeps the search invariant. |
| `Search.PopOrderedExtend` | src/planners.py:244-245 | Popping the front of a pop-ordered queue keeps the pops in non-decreasing priority. |
| `Search.HeapStepFrontier` | src/planners.py:244-263 | Popping the heap's root, expanding it and pushing its children keeps the search invariant. |
| `Search.HeapStepOrder` | src/planners.py:244-263 | With a consistent estimate, popping the root and pushing its children keeps the pops in non-decreasing priority. |
| `Search.ZeroHeuristicConsistent` | src/planners.py:178-186 | Uniform-cost search's zero estimate is consistent. |
| `Search.ManhattanConsistent` | src/planners.py:219 | The default A* estimate changes by at most 1 per move, so it is consistent. |
| `Search.PopOrderedStep` | src/planners.py:244-263 | With a consistent estimate and move costs of at least 1, popping a least entry and queuing its children keeps the pops in non-decreasing priority. |
| `Search.BestFirst` | src/planners.py:236-265 | The queue is a binary heap ordered by priority, then cost, popped and pushed as `heapq` does. A found node is a proper cost-accounted chain from the start ending at the goal, and is the last pop. "No path" means no valid walk reaches the goal. Every popped node is properly formed. With a consistent estimate, pops come in non-decreasing priority. |
| `Search.BfsPlan` | src/planners.py:116-158 | A found route is valid from the start at the start time and ends at the goal. Its cost is its number of moves, and no valid walk to the goal is shorter. Start equals goal gives the cost-0 root. |
| `Search.UcsPlan` | src/planners.py:160-205 | A found route is valid and ends at the goal, and its cost is the terrain cost of its path. Start equals goal gives the cost-0 root. |
| `Search.AStarPlan` | src/planners.py:207-265 | A found route is valid and ends at the goal, and its cost is the terrain cost of its path. Start equals goal gives the cost-0 root. |
| `Annealing.ModifyIndex` | src/planners.py:319 | The waypoint chosen for modification is interior: never the start or the goal. |
| `Annealing.FindAlternative` | src/planners.py:331-342 | The direction chosen is the first in the shuffled order that gives an enterable detour cell, distinct from both neighbours and adjacent to the next waypoint. None means no direction does. |
| `Annealing.Candidate` | src/planners.py:319-342 | A candidate changes only the chosen waypoint, to a cell adjacent to both neighbours, enterable at its time step and different from the next waypoint. None exactly when no direction qualifies. |
| `Annealing.CandidateStaysValid` | src/planners.py:344-358 | A candidate built from a valid walk is again a valid walk, so the revalidation never rejects it. |
| `Annealing.CostIfValid` | src/planners.py:344-358 | Revalidation succeeds exactly when every waypoint after the first can be entered at its time step, and the cost is then the path's terrain cost. |
| `Annealing.Metropolis` | src/planners.py:367-370 | The acceptance test raises exactly when the temperature is not zero and the exponent is beyond what `math.exp` can represent. At temperature zero the costs' numpy division gives +inf, nan or -inf, so only a strictly cheaper candidate passes. Otherwise a non-negative exponent always adopts, since a draw in [0, 1) is below any probability of at least 1, and a negative one adopts exactly when the coin says so. |
| `Annealing.MetropolisPositive` | src/planners.py:362-370 | At a positive temperature the test on a candidate that is not strictly cheaper never raises. An equal cost is adopted, because `exp(0)` is 1, and a costlier one exactly when the coin says so. |
| `Annealing.MetropolisNonPositive` | src/planners.py:367-370 | At temperature zero a candidate that is not strictly cheaper is rejected whatever the coin. At a negative temperature it is adopted whatever the coin, unless the exponent overflows. |
| `Annealing.Adopt` | src/planners.py:362-370 | A strictly cheaper candidate is always adopted. Raising needs a negative temperature and a candidate that is not strictly cheaper. At a positive temperature a candidate is adopted exactly when it is no costlier or the coin says so; at temperature zero exactly when it is strictly cheaper. |
| `Annealing.Settle` | src/planners.py:360-373 | Once a detour is found, the iteration raises only at a negative temperature. Otherwise the temperature cools by the rate, and the route is either kept or replaced by the detour. At a positive temperature a replacement was no costlier or accepted by the coin. |
| `Annealing.SettleAdopts` | src/planners.py:360-373 | Conversely, at a positive temperature a valid detour that is no costlier, or that the coin accepts, is adopted with its cost. |
| `Annealing.SettleNonPositive` | src/planners.py:360-373 | A valid detour that is not strictly cheaper is rejected at temperature zero, the route kept and the temperature cooled. At a negative temperature it is adopted unless the exponent overflows. |
| `Annealing.SettleOutcome` | src/planners.py:344-373 | The iteration either keeps the route and its cost, or adopts the detour with the cost its revalidation computed. |
| `Annealing.AnnealStep` | src/planners.py:313-373 | An iteration raises only at a negative temperature. A changed route has the same length and differs only at the chosen waypoint; at a positive temperature it was no costlier or accepted by the coin. No detour leaves everything unchanged. A found detour cools the temperature by the cooling rate. |
| `Annealing.AnnealStepAdopts` | src/planners.py:360-373 | Conversely, at a positive temperature a valid detour that costs no more than the current route, or that the coin accepts, is always adopted with its cost, and the temperature cools. |
| `Annealing.AnnealStepNonPositive` | src/planners.py:360-373 | At temperature zero a valid detour that is not strictly cheaper is rejected, even at equal cost, and the temperature still cools. At a negative temperature such a detour is adopted unless the exponent overflows. |
| `Annealing.AnnealStepSound` | src/planners.py:313-373 | An iteration that does not raise keeps the route a valid walk with the seed's endpoints and length, and its cost accounted. |
| `Annealing.AnnealStepStaysPositive` | src/planners.py:311-373 | With a positive temperature and cooling rate an iteration never raises, and the temperature stays positive. |
| `Annealing.AnnealStepStaysNonNegative` | src/planners.py:311-373 | With a non-negative temperature and cooling rate an iteration never raises, and the temperature stays non-negative. |
| `Annealing.AnnealStepAtZero` | src/planners.py:360-373 | At temperature zero an iteration never raises and the temperature stays zero. The route changes only to a strictly cheaper one, so the cost never grows. |
| `Annealing.Anneal` | src/planners.py:311-373 | The annealing loop raises only when the initial temperature or the cooling rate is negative. Otherwise it ends with a sound route. At initial temperature zero it ends no costlier than the seed. A route of at most two positions, or zero iterations, is returned unchanged without raising. |
| `Annealing.BuildChain` | src/planners.py:375-388 | The rebuilt chain has exactly the route's positions, time steps counting up from the start time, cumulative terrain costs, and its root at the start. |
| `Annealing.SimulatedAnnealingPlan` | src/planners.py:286-390 | The planner raises only after its A* seed succeeded, and only when the initial temperature or the cooling rate is negative. Without raising, it fails exactly when its A* seed fails. Otherwise it returns a valid, cost-accounted route from start to goal with the seed's length, and returns the seed itself when nothing can be modified. At initial temperature zero it does not raise and its route costs no more than the seed. Start equals goal gives the cost-0 root without raising. |
| `Annealing.Refine` | src/planners.py:308-388 | Refining an A* route raises only when the initial temperature or the cooling rate is negative. Otherwise it keeps start, goal, length, validity and cost accounting, and returns the seed unchanged when nothing can be modified. At initial temperature zero it does not raise and costs no more than the seed. |
| `Annealing.SeedIsSound` | src/planners.py:301-309 | The A* route seeding the annealer is sound, from the start to the goal. |
| `Annealing.Rebuild` | src/planners.py:375-388 | The chain rebuilt from an annealed route is a route between the seed's endpoints, with the seed's length and the route's accounted cost. It is the seed itself when the route did not change. |
| `Annealing.ResultIsRoute` | src/planners.py:375-388 | The chain rebuilt from a sound route is a route from start to goal. It is the seed node itself when the route did not change. |
| `Annealing.ChainDeterminedByPath` | src/planners.py:375-388 | Two properly formed, cost-accounted chains with the same path and root are equal. |
| `Agent.NewAgent` | src/agent.py:13-31 | A new agent stands at its start with the given fuel, no route, no packages or destinations, and a zero delivery count. |
| `Agent.AddPackage` | src/agent.py:33-41 | The package is appended and nothing else changes. |
| `Agent.AddDestination` | src/agent.py:43-51 | The destination is appended and nothing else changes. |
| `Agent.ParseAlgorithm` | src/agent.py:65-74 | A recognised name selects the algorithm of that name. |
| `Agent.AlgorithmNames` | src/agent.py:65-74 | Each algorithm is selected by its name, and exactly the four names "bfs", "ucs", "a_star" and "sa" are recognised. |
| `Agent.PlanPathTo` | src/agent.py:53-85 | An unknown name raises. A failed plan leaves the agent unchanged. A found plan changes only the route and resets the step index. The route, without the current cell, leads from the agent to the goal through cells enterable from the current step onward, inside the grid. Breadth-first routes are shortest. Planning to the agent's own cell succeeds with an empty route. |
| `Agent.AdoptedRoute` | src/agent.py:78-83 | Dropping the first position of a planner's route leaves a route that leads from the start to the goal inside the grid. |
| `Agent.RemoveFirst` | src/agent.py:107-109 | Removing a package position absent from the list changes nothing. Otherwise exactly one element goes. |
| `Agent.RemoveFirstRemovesOne` | src/agent.py:107-109 | Removal takes exactly one occurrence of the position out of the multiset of packages. |
| `Agent.RemoveFirstCutsFirstOccurrence` | src/agent.py:107-109 | Removal cuts out the first occurrence and keeps the order of the rest. |
| `Agent.ExecuteStep` | src/agent.py:87-117 | A step is taken exactly when route remains; otherwise nothing changes. The agent moves to the next waypoint and the index advances. Fuel drops by that cell's terrain cost, strictly on a well-formed grid. A package there is removed once. Route, destinations, static layers and a non-positive delivery count stay, and well-formedness is kept. |
| `Agent.StepMovesObstacles` | src/agent.py:103-104 | A step advances every moving obstacle once; a refused step moves none. |
| `Agent.TravelStepCost` | src/agent.py:99-101 | Each further step adds the entered cell's cost to the fuel spent along the leg. |
| `Agent.StepOnRoute` | src/agent.py:94-97 | A step keeps the agent on its route, one waypoint further. |
| `Agent.StepPlaced` | src/agent.py:95-96 | A step away from the target leaves the agent on the waypoint just taken, with the target not passed. |
| `Agent.StepKept` | src/agent.py:106-113 | A step only takes packages away and keeps the destinations and a non-positive delivery count. |
| `Agent.TravelStep` | src/agent.py:150-158 | A step on the way to a point keeps all travel facts and costs fuel. |
| `Agent.TravelTo` | src/agent.py:150-158 | Following a leg keeps the agent on its route. The fuel spent is exactly the terrain cost of the walk taken, and the agent stops at the first waypoint equal to the point. Arrival means it stands on the point, and an agent already there does nothing. Failure means the route ran out or the fuel reached zero or below. |
| `Agent.TravelledFacts` | src/agent.py:150-158 | After a leg the grid is still well formed, fuel has not grown, packages only shrank, and destinations are unchanged. |
| `Agent.DeliverPackages` | src/agent.py:132-160 | Each leg draws from its own oracle, so the random generator carries on between legs. An unknown name raises exactly when there is a point to visit. The mission succeeds exactly when it reached every point and no package is left. Having reached every point, the agent stands on the last one, and on success its fuel is above zero (or untouched). Packages only shrink, destinations stay, fuel never grows, and the delivery count stays at a non-positive start. An agent starting on its only package, with no destinations, fails. |

## Left out

- File I/O and tokenising in `load_from_file` / `save_to_file`. A file is modelled as a sequence of lines of integer tokens. A token that `int()` would reject, or a missing line or token, makes the load fail (`None`) instead of raising.
- The exceptions other than the unknown-algorithm `ValueError` become `None` or a precondition, as follows:
  - `ValueError` from `TerrainType` of a non-terrain value makes the load fail.
  - numpy's `ValueError` for a negative dimension (src/environment.py:92) makes `Environment.NewGrid` return `None`.
  - numpy `IndexError` for out-of-range coordinates in `get_cost`, `add_obstacle` and `set_terrain` becomes a precondition. The index must be within one wrap of the grid, and the negative-index wrap is modelled.
  - `ZeroDivisionError` for a moving obstacle with an empty path becomes a precondition: every moving obstacle must have a non-empty path.
  - `OverflowError` from `math.exp` in the acceptance test (src/planners.py:367), possible only at a negative temperature, is modelled: the iteration returns `Raised`, and the planner reports it in its `raised` result. A zero temperature raises nothing there: the costs are numpy integers (src/environment.py:93, :135), so the division gives +inf, nan or -inf with only a warning, and a candidate that is not strictly cheaper is rejected. The agent plans with temperature 100.0 and cooling rate 0.95, so its annealing never raises.
- Search termination. A search state includes its time step, so a search toward an unreachable goal runs forever in the source. Every search here takes a `budget` of expansions and reports failure when it is spent. Results are therefore partially correct: a route returned is correct, and "no path" reached by exhausting the queue is correct.
- Equal-priority ties in A* between two states with the same position and time step. Python compares the `(priority, node)` pairs, and such nodes compare equal, so neither is less. The model's rank compares their costs instead. The visited set keeps a key from being queued twice, but the model does not prove that queued keys are distinct.
- Optimality of uniform-cost search and A*. States are marked visited when queued, which can lock in a costlier first arrival, so no least-cost claim is made. Only the pop order is proved.
- Search.BfsPlan: `None` covers both a spent budget and an exhausted queue, so it makes no no-path claim. `Search.BreadthFirst` carries that claim for the exhausted queue.
- Search.UcsPlan: states validity and cost accounting of a found route, but not the no-path claim, which `Search.BestFirst` carries before the budget is mapped to `None`.
- Search.AStarPlan: same as `Search.UcsPlan`.
- The floating-point temperature and the Metropolis draw (`math.exp`, `random.random`). Temperature is a `real`, and the draw for a costlier candidate is the oracle's `accept` coin.
- Annealing.Anneal: a positive real temperature stays positive, but the source's float temperature underflows to 0.0 after about 14,600 cooled iterations at rate 0.95 from 100.0. From then on the source rejects an equal-cost detour, which the model, still at a positive temperature, adopts. The default of 1000 iterations never gets there.
- Annealing.Metropolis: the overflow bound is compared exactly, not after float rounding. A division that overflows to infinity, at a negative temperature near zero, makes `math.exp` return infinity instead of raising; the model raises there.
- `random.randint` and `random.shuffle` are the oracle's `pick` and `order`. `ModifyIndex` maps any pick into the interior range; the direction order is any sequence the oracle gives.
- `euclidean_distance` uses floating-point `sqrt` and is not the default heuristic of any planner.
- The abstract planner base class: it only declares `plan`.
- Cell kinds other than free and obstacle (agent, package, destination, moving obstacle) are declared in the source but never stored in the grid.
- `has_reached_goal` is the position comparison inside `Agent.TravelTo`. `get_status` only reports fields.
- All `print` output of the agent.
- Agent.ExecuteStep: requires the next waypoint to be a valid grid index. The source would raise numpy's `IndexError` there; planned routes always satisfy the requirement (`Agent.PlanPathTo`).
- Agent.DeliverPackages: counts the points reached but does not state where the agent stood after each earlier leg, nor which of the three failure causes stopped a failed mission.
- The predictor ignores the obstacle's speed and step counter, while the real stepper honours them, so at speed above 1 they disagree. The model follows the code, which differs from a reading in which the prediction period is the path length times the speed. `Environment.PredictionIgnoresSpeed` exhibits the disagreement.
- A package lying on the agent's own cell when a leg starts is not picked up by that leg: the leg has no step onto it. With that as the only package and no destinations, the mission fails (`Agent.DeliverPackages`).
- The delivery counter starts at 0 and the guard that would change it needs fewer packages than the counter, so it never changes. The model keeps the guard as written.
- The web API facade, the command-line front end, map generation and timing utilities, and the demo scripts are not part of this model.

=== FILE: agent.dfy ===
/** The delivery agent: it plans a route to a point with one of the four
    planners, follows it step by step burning fuel by terrain cost while the
    moving obstacles advance, picks packages up where it passes them, and
    runs the whole mission of visiting every package and then every
    destination. */
module Agent {
  import opened Basics
  import opened Environment
  import opened Nodes
  import opened Search
  import opened Annealing

  /** The agent: its world, position, fuel, the route it follows (without its
      own position) with the index of the next move, the package and
      destination lists, and the delivered-package counter. */
  datatype DeliveryAgent = DeliveryAgent(
    grid: Grid,
    x: int, y: int,
    fuel: int,
    path: seq<Pos>,
    currentStep: nat,
    packages: seq<Pos>,
    destinations: seq<Pos>,
    delivered: int)

  /** A new agent at `(sx, sy)` with `fuel` units (the constructor's default
      is 100), no route and nothing to deliver. */
  function NewAgent(g: Grid, sx: int, sy: int, fuel: int): (a: DeliveryAgent)
    ensures a.grid == g && (a.x, a.y) == (sx, sy) && a.fuel == fuel
    ensures a.path == [] && a.currentStep == 0
    ensures a.packages == [] && a.destinations == [] && a.delivered == 0
  {
    DeliveryAgent(g, sx, sy, fuel, [], 0, [], [], 0)
  }

  function AddPackage(a: DeliveryAgent, x: int, y: int): (r: DeliveryAgent)
    ensures r.packages == a.packages + [(x, y)]
    ensures r == a.(packages := r.packages)
  {
    a.(packages := a.packages + [(x, y)])
  }

  function AddDestination(a: DeliveryAgent, x: int, y: int): (r: DeliveryAgent)
    ensures r.destinations == a.destinations + [(x, y)]
    ensures r == a.(destinations := r.destinations)
  {
    a.(destinations := a.destinations + [(x, y)])
  }

  // ---------------------------------------------------------------------
  // Choosing a planner
  // ---------------------------------------------------------------------

  datatype Algorithm = Bfs | Ucs | AStar | Sa

  /** The name an algorithm is selected by. */
  function Name(alg: Algorithm): string {
    match alg
    case Bfs => "bfs"
    case Ucs => "ucs"
    case AStar => "a_star"
    case Sa => "sa"
  }

  /** The algorithm a name selects; any other name is unknown. */
  function ParseAlgorithm(name: string): (r: Option<Algorithm>)
    ensures r.Some? ==> Name(r.value) == name
  {
    if name == "bfs" then Some(Bfs)
    else if name == "ucs" then Some(Ucs)
    else if name == "a_star" then Some(AStar)
    else if name == "sa" then Some(Sa)
    else None
  }

  /** Every algorithm is selected by its own name, and exactly the four names
      are known. */
  lemma AlgorithmNames(alg: Algorithm, name: string)
    ensures ParseAlgorithm(Name(alg)) == Some(alg)
    ensures ParseAlgorithm(name).Some? <==> name in {"bfs", "ucs", "a_star", "sa"}
  {
  }

  // ---------------------------------------------------------------------
  // Planning
  // ---------------------------------------------------------------------

  /** `path` leads from `from` to `goal`: each move is one step to a cell
      enterable at its time step, counting from `t0`. */
  predicate Leads(g: Grid, from: Pos, path: seq<Pos>, goal: Pos, t0: int)
    requires Shaped(g) && MoversHavePaths(g)
  {
    ValidWalk(g, [from] + path, from, t0) && ([from] + path)[|path|] == goal
  }

  /** Every waypoint of the route lies inside the grid. */
  predicate RouteInBounds(a: DeliveryAgent) {
    forall i :: 0 <= i < |a.path| ==> InBounds(a.grid, a.path[i].0, a.path[i].1)
  }

  /** The outcome of planning: an unknown algorithm name raises; otherwise
      whether a route was found, and the agent afterwards. */
  datatype PlanResult = UnknownAlgorithm | Replanned(found: bool, agent: DeliveryAgent)

  /** plan_path_to: plans from the agent's position, starting at time step
      `currentStep`, and on success adopts the route without its first
      position and restarts the step index. */
  method PlanPathTo(a: DeliveryAgent, gx: int, gy: int, algorithm: string, oracle: Oracle, budget: nat)
    returns (r: PlanResult)
    requires WellFormed(a.grid)
    ensures r.UnknownAlgorithm? <==> ParseAlgorithm(algorithm).None?
    ensures r.Replanned? && !r.found ==> r.agent == a
    ensures r.Replanned? && r.found ==> r.agent == a.(path := r.agent.path, currentStep := 0)
    ensures r.Replanned? && r.found ==> Leads(a.grid, (a.x, a.y), r.agent.path, (gx, gy), a.currentStep)
    ensures r.Replanned? && r.found ==> RouteInBounds(r.agent)
    ensures r.Replanned? && r.found && algorithm == "bfs" ==>
              forall w :: ValidWalk(a.grid, w, (a.x, a.y), a.currentStep) && w[|w| - 1] == (gx, gy) ==> |r.agent.path| < |w|
    ensures (a.x, a.y) == (gx, gy) && r.Replanned? ==> r.found && r.agent.path == []
  {
    var alg := ParseAlgorithm(algorithm);
    if alg.None? {
      return UnknownAlgorithm;
    }
    var g, t0 := a.grid, a.currentStep;
    var node: Option<Node>;
    match alg.value {
      case Bfs =>
        node := BfsPlan(g, a.x, a.y, gx, gy, t0, budget);
      case Ucs =>
        node := UcsPlan(g, a.x, a.y, gx, gy, t0, budget);
      case AStar =>
        node := AStarPlan(g, a.x, a.y, gx, gy, t0, Manhattan, budget);
      case Sa =>
        var raised, seed;
        raised, node, seed := SimulatedAnnealingPlan(g, a.x, a.y, gx, gy, t0, oracle, MaxIterations, InitialTemperature, CoolingRate, budget);
        assert !raised;
    }
    if node.None? {
      return Replanned(false, a);
    }
    var full := ReconstructPath(node.value);
    AdoptedRoute(g, node.value, a.x, a.y, gx, gy, t0);
    r := Replanned(true, a.(path := full[1..], currentStep := 0));
  }

  /** A planner's route, minus its first position, leads from the start to
      the goal inside the grid. */
  lemma AdoptedRoute(g: Grid, n: Node, sx: int, sy: int, gx: int, gy: int, t0: int)
    requires WellFormed(g) && Route(g, n, sx, sy, gx, gy, t0)
    ensures [(sx, sy)] + GetPath(n)[1..] == GetPath(n)
    ensures Leads(g, (sx, sy), GetPath(n)[1..], (gx, gy), t0)
    ensures forall i :: 0 <= i < |GetPath(n)[1..]| ==> InBounds(g, GetPath(n)[1..][i].0, GetPath(n)[1..][i].1)
    ensures CellsInBounds(g, GetPath(n)) && PathCost(g, GetPath(n)) >= |GetPath(n)| - 1
  {
    ChainIsWalk(g, n);
    var w := GetPath(n);
    assert [(sx, sy)] + w[1..] == w;
    forall i | 0 <= i < |w[1..]|
      ensures InBounds(g, w[1..][i].0, w[1..][i].1)
    {
      assert w[1..][i] == w[i + 1];
    }
    PathCostAtLeastMoves(g, w);
  }

  // ---------------------------------------------------------------------
  // Following the route
  // ---------------------------------------------------------------------

  /** The first index at which `p` occurs. */
  function FirstIndex(s: seq<Pos>, p: Pos): (i: nat)
    requires p in s
    ensures i < |s| && s[i] == p
    ensures forall j :: 0 <= j < i ==> s[j] != p
  {
    if s[0] == p then 0 else 1 + FirstIndex(s[1..], p)
  }

  /** List removal: drops the first occurrence of `p`, if any. */
  function RemoveFirst(s: seq<Pos>, p: Pos): (r: seq<Pos>)
    ensures p !in s ==> r == s
    ensures |r| == |s| - (if p in s then 1 else 0)
  {
    if s == [] then []
    else if s[0] == p then s[1..]
    else [s[0]] + RemoveFirst(s[1..], p)
  }

  /** Removal takes away one occurrence of `p` and nothing else. */
  lemma {:induction false} RemoveFirstRemovesOne(s: seq<Pos>, p: Pos)
    ensures multiset(RemoveFirst(s, p)) == multiset(s) - multiset{p}
  {
    if s != [] {
      assert s == [s[0]] + s[1..];
      if s[0] != p {
        RemoveFirstRemovesOne(s[1..], p);
      }
    }
  }

  /** Removal keeps the order of the rest: it cuts out exactly the first
      occurrence. */
  lemma {:induction false} RemoveFirstCutsFirstOccurrence(s: seq<Pos>, p: Pos)
    requires p in s
    ensures RemoveFirst(s, p) == s[..FirstIndex(s, p)] + s[FirstIndex(s, p) + 1..]
  {
    if s[0] != p {
      var t := s[1..];
      assert p in t by {
        assert t[FirstIndex(s, p) - 1] == p;
      }
      var i := FirstIndex(t, p);
      RemoveFirstCutsFirstOccurrence(t, p);
      assert RemoveFirst(s, p) == [s[0]] + (t[..i] + t[i + 1..]);
      assert FirstIndex(s, p) == i + 1;
      assert [s[0]] + (t[..i] + t[i + 1..]) == s[..i + 1] + s[i + 2..] by {
        assert s[..i + 1] == [s[0]] + t[..i];
        assert s[i + 2..] == t[i + 1..];
      }
    }
  }

  /** The agent can follow its route: the world is well formed and every
      waypoint is inside it. */
  predicate Ready(a: DeliveryAgent) {
    WellFormed(a.grid) && RouteInBounds(a)
  }

  /** execute_step: moves to the next waypoint, pays its terrain cost in
      fuel, advances the moving obstacles, and picks up a package lying
      there. The delivery counter is only lowered below its current value,
      so from zero it never changes. Reports whether a move was made. */
  function ExecuteStep(a: DeliveryAgent): (r: (bool, DeliveryAgent))
    requires Shaped(a.grid) && MoversHavePaths(a.grid)
    requires a.currentStep < |a.path| ==> Indexable(a.grid, a.path[a.currentStep].0, a.path[a.currentStep].1)
    ensures r.0 <==> a.currentStep < |a.path|
    ensures !r.0 ==> r.1 == a
    ensures r.0 ==> (r.1.x, r.1.y) == a.path[a.currentStep] && r.1.currentStep == a.currentStep + 1
    ensures r.0 ==> r.1.fuel == a.fuel - GetCost(a.grid, r.1.x, r.1.y)
    ensures r.0 && WellFormed(a.grid) ==> r.1.fuel < a.fuel
    ensures r.1.grid.width == a.grid.width && r.1.grid.height == a.grid.height
    ensures r.1.grid.terrain == a.grid.terrain && r.1.grid.cells == a.grid.cells
    ensures MoversHavePaths(r.1.grid)
    ensures r.0 ==> r.1.packages == RemoveFirst(a.packages, (r.1.x, r.1.y))
    ensures r.0 ==> |r.1.packages| == |a.packages| - (if (r.1.x, r.1.y) in a.packages then 1 else 0)
    ensures r.1.path == a.path && r.1.destinations == a.destinations
    ensures a.delivered <= 0 ==> r.1.delivered == a.delivered
    ensures WellFormed(a.grid) ==> WellFormed(r.1.grid)
    ensures RouteInBounds(a) ==> RouteInBounds(r.1)
  {
    if a.currentStep < |a.path| then
      var (nx, ny) := a.path[a.currentStep];
      var cost := GetCost(a.grid, nx, ny);
      var packages := RemoveFirst(a.packages, (nx, ny));
      var delivered :=
        if (nx, ny) in a.destinations && |packages| < a.delivered then |packages| else a.delivered;
      (true, a.(x := nx, y := ny, currentStep := a.currentStep + 1, fuel := a.fuel - cost,
                grid := UpdateMovingObstacles(a.grid), packages := packages, delivered := delivered))
    else
      (false, a)
  }

  /** A step advances every moving obstacle, and only when a move is made. */
  lemma StepMovesObstacles(a: DeliveryAgent)
    requires Shaped(a.grid) && MoversHavePaths(a.grid)
    requires a.currentStep < |a.path| ==> Indexable(a.grid, a.path[a.currentStep].0, a.path[a.currentStep].1)
    ensures ExecuteStep(a).0 ==> ExecuteStep(a).1.grid == UpdateMovingObstacles(a.grid)
    ensures !ExecuteStep(a).0 ==> ExecuteStep(a).1.grid == a.grid
  {
  }

  /** The walk from `p` through `route[c..n]` is the walk through
      `route[c..m]` followed by one more waypoint. */
  lemma WalkPrefix(p: Pos, route: seq<Pos>, c: nat, m: nat, n: nat)
    requires c <= m && n == m + 1 && n <= |route|
    ensures [p] + route[c..n] == ([p] + route[c..m]) + [route[m]]
  {
  }

  lemma SameTerrainSameCost(g: Grid, h: Grid, x: int, y: int)
    requires Shaped(g) && Shaped(h) && Indexable(g, x, y)
    requires g.width == h.width && g.height == h.height && g.terrain == h.terrain
    ensures Indexable(h, x, y) && GetCost(g, x, y) == GetCost(h, x, y)
  {
  }

  /** The agent `r` is part way along the route `a` started on: same route
      and static layers, and not before `a` on it. */
  ghost predicate OnRoute(a: DeliveryAgent, r: DeliveryAgent) {
    && Ready(a) && Ready(r) && r.path == a.path
    && a.currentStep <= r.currentStep <= |r.path|
    && r.grid.width == a.grid.width && r.grid.height == a.grid.height
    && r.grid.terrain == a.grid.terrain && r.grid.cells == a.grid.cells
  }

  /** `r` stands on the last waypoint it took, and none before it was the
      target. */
  ghost predicate Placed(a: DeliveryAgent, r: DeliveryAgent, px: int, py: int)
    requires OnRoute(a, r)
  {
    && (r.currentStep > a.currentStep ==> (r.x, r.y) == r.path[r.currentStep - 1])
    && (r.currentStep == a.currentStep ==> (r.x, r.y) == (a.x, a.y))
    && (forall j :: a.currentStep <= j < r.currentStep - 1 ==> a.path[j] != (px, py))
  }

  /** `r` has paid the terrain cost of the walk taken since `a`. */
  ghost predicate Paid(a: DeliveryAgent, r: DeliveryAgent)
    requires OnRoute(a, r)
  {
    && CellsInBounds(a.grid, [(a.x, a.y)] + a.path[a.currentStep..r.currentStep])
    && r.fuel == a.fuel - PathCost(a.grid, [(a.x, a.y)] + a.path[a.currentStep..r.currentStep])
  }

  /** Packages were only taken away, destinations and the counter kept. */
  ghost predicate Kept(a: DeliveryAgent, r: DeliveryAgent) {
    && multiset(r.packages) <= multiset(a.packages)
    && r.destinations == a.destinations
    && (a.delivered <= 0 ==> r.delivered == a.delivered)
  }

  /** What holds of the agent `r` part way along the route `a` started
      from, on its way to `(px, py)`: it has taken the waypoints from
      `a.currentStep` up to `r.currentStep`, stands on the last of them,
      passed the target nowhere before, and paid their terrain cost. */
  ghost predicate Travelling(a: DeliveryAgent, r: DeliveryAgent, px: int, py: int) {
    OnRoute(a, r) && Placed(a, r, px, py) && Paid(a, r) && Kept(a, r)
  }

  /** One more step extends the walk paid for by the waypoint reached. */
  lemma TravelStepCost(a: DeliveryAgent, r: DeliveryAgent, px: int, py: int)
    requires Travelling(a, r, px, py) && r.currentStep < |r.path|
    ensures ExecuteStep(r).0 && ExecuteStep(r).1.currentStep == r.currentStep + 1
    ensures CellsInBounds(a.grid, [(a.x, a.y)] + a.path[a.currentStep..r.currentStep + 1])
    ensures ExecuteStep(r).1.fuel == a.fuel - PathCost(a.grid, [(a.x, a.y)] + a.path[a.currentStep..r.currentStep + 1])
    ensures ExecuteStep(r).1.fuel < r.fuel
  {
    var c, m := a.currentStep, r.currentStep;
    var q := a.path[m];
    var u := [(a.x, a.y)] + a.path[c..m];
    WalkPrefix((a.x, a.y), a.path, c, m, m + 1);
    assert CellsInBounds(a.grid, u + [q]) by {
      assert InBounds(a.grid, q.0, q.1);
      forall j | 1 <= j < |u + [q]|
        ensures InBounds(a.grid, (u + [q])[j].0, (u + [q])[j].1)
      {
        if j < |u| {
          assert (u + [q])[j] == u[j];
        }
      }
    }
    PathCostSnoc(a.grid, u, q);
    SameTerrainSameCost(r.grid, a.grid, q.0, q.1);
  }

  /** One step keeps the agent on the route. */
  lemma StepOnRoute(a: DeliveryAgent, r: DeliveryAgent)
    requires OnRoute(a, r) && r.currentStep < |r.path|
    ensures ExecuteStep(r).0 && OnRoute(a, ExecuteStep(r).1)
    ensures ExecuteStep(r).1.currentStep == r.currentStep + 1
  {
  }

  /** One step away from the target leaves the agent on the waypoint taken,
      with the target still not passed. */
  lemma StepPlaced(a: DeliveryAgent, r: DeliveryAgent, px: int, py: int)
    requires OnRoute(a, r) && Placed(a, r, px, py) && r.currentStep < |r.path| && (r.x, r.y) != (px, py)
    ensures OnRoute(a, ExecuteStep(r).1) && Placed(a, ExecuteStep(r).1, px, py)
  {
    StepOnRoute(a, r);
    var c, m := a.currentStep, r.currentStep;
    var r' := ExecuteStep(r).1;
    forall j | c <= j < m
      ensures a.path[j] != (px, py)
    {
      if j == m - 1 {
        assert a.path[j] == (r.x, r.y);
      }
    }
    assert r'.currentStep - 1 == m;
  }

  /** One step takes away at most the package where it lands. */
  lemma StepKept(a: DeliveryAgent, r: DeliveryAgent)
    requires Kept(a, r) && Shaped(r.grid) && MoversHavePaths(r.grid) && r.currentStep < |r.path|
    requires Indexable(r.grid, r.path[r.currentStep].0, r.path[r.currentStep].1)
    ensures Kept(a, ExecuteStep(r).1)
  {
    RemoveFirstRemovesOne(r.packages, r.path[r.currentStep]);
  }

  /** One step away from the target keeps the agent travelling, and costs
      fuel. */
  lemma TravelStep(a: DeliveryAgent, r: DeliveryAgent, px: int, py: int)
    requires Travelling(a, r, px, py) && r.currentStep < |r.path| && (r.x, r.y) != (px, py)
    ensures ExecuteStep(r).0 && ExecuteStep(r).1.currentStep == r.currentStep + 1
    ensures Travelling(a, ExecuteStep(r).1, px, py)
    ensures ExecuteStep(r).1.fuel < r.fuel
  {
    StepPlaced(a, r, px, py);
    TravelStepCost(a, r, px, py);
    StepKept(a, r);
  }

  /** The inner loop of deliver_packages: takes steps along the route until
      the agent stands on `(px, py)`, failing when the route runs out first or
      a step uses the fuel up. On the way it pays exactly the terrain cost of
      the walk it took, and it stops at the first waypoint equal to the
      target. */
  method TravelTo(a: DeliveryAgent, px: int, py: int) returns (arrived: bool, r: DeliveryAgent)
    requires Ready(a) && a.currentStep <= |a.path|
    ensures Travelling(a, r, px, py)
    ensures arrived ==> (r.x, r.y) == (px, py)
    ensures (a.x, a.y) == (px, py) ==> arrived && r == a
    ensures !arrived ==> r.currentStep == |r.path| || r.fuel <= 0
    ensures r.fuel > 0 || r.fuel == a.fuel || !arrived
  {
    r := a;
    assert a.path[a.currentStep..a.currentStep] == [];
    while (r.x, r.y) != (px, py)
      invariant Travelling(a, r, px, py)
      invariant r.fuel > 0 || r.fuel == a.fuel
      invariant (a.x, a.y) == (px, py) ==> r == a
      decreases |r.path| - r.currentStep
    {
      var step := ExecuteStep(r);
      if !step.0 {
        return false, r;
      }
      TravelStep(a, r, px, py);
      r := step.1;
      if r.fuel <= 0 {
        return false, r;
      }
    }
    arrived := true;
  }

  /** The facts the mission keeps from a leg. */
  lemma TravelledFacts(a: DeliveryAgent, r: DeliveryAgent, px: int, py: int)
    requires Travelling(a, r, px, py)
    ensures WellFormed(r.grid) && r.fuel <= a.fuel
    ensures multiset(r.packages) <= multiset(a.packages) && r.destinations == a.destinations
    ensures a.delivered <= 0 ==> r.delivered == a.delivered
  {
    PathCostAtLeastMoves(a.grid, [(a.x, a.y)] + a.path[a.currentStep..r.currentStep]);
  }

  // ---------------------------------------------------------------------
  // The mission
  // ---------------------------------------------------------------------

  /** The outcome of a mission: an unknown algorithm name raises at the first
      planning; otherwise whether every package was picked up, the agent
      afterwards, and how many points it reached before stopping. */
  datatype MissionResult = MissionRaised | Mission(success: bool, agent: DeliveryAgent, reached: nat)

  /** deliver_packages: visits every package position and then every
      destination, in list order, planning each leg from where the agent
      stands and following it until the agent is there. The mission stops
      with failure when a leg cannot be planned, the route runs out before
      the point, or the fuel is used up; otherwise it succeeds exactly when
      no package is left. Leg `i` draws its random numbers from `oracles(i)`,
      so the annealing planner's generator carries on from leg to leg. */
  method DeliverPackages(a: DeliveryAgent, algorithm: string, oracles: nat -> Oracle, budget: nat)
    returns (r: MissionResult)
    requires WellFormed(a.grid)
    ensures r.MissionRaised? <==> ParseAlgorithm(algorithm).None? && |a.packages + a.destinations| > 0
    ensures r.Mission? ==> r.reached <= |a.packages + a.destinations|
    ensures r.Mission? ==> (r.success <==> r.reached == |a.packages + a.destinations| && r.agent.packages == [])
    ensures r.Mission? && 0 < r.reached == |a.packages + a.destinations| ==>
              (r.agent.x, r.agent.y) == (a.packages + a.destinations)[r.reached - 1]
    ensures r.Mission? && r.success ==> r.agent.fuel > 0 || r.agent.fuel == a.fuel
    ensures r.Mission? ==> multiset(r.agent.packages) <= multiset(a.packages)
    ensures r.Mission? ==> r.agent.destinations == a.destinations && r.agent.fuel <= a.fuel
    ensures r.Mission? && a.delivered <= 0 ==> r.agent.delivered == a.delivered
    ensures r.Mission? ==> WellFormed(r.agent.grid)
    ensures a.packages == [(a.x, a.y)] && a.destinations == [] && ParseAlgorithm(algorithm).Some? ==>
              r.Mission? && !r.success
  {
    var points := a.packages + a.destinations;
    var agent := a;
    var i := 0;
    ghost var startsOnOnlyPackage := a.packages == [(a.x, a.y)] && a.destinations == [] && ParseAlgorithm(algorithm).Some?;
    while i < |points|
      invariant 0 <= i <= |points|
      invariant WellFormed(agent.grid)
      invariant i > 0 ==> ParseAlgorithm(algorithm).Some? && (agent.x, agent.y) == points[i - 1]
      invariant multiset(agent.packages) <= multiset(a.packages)
      invariant agent.destinations == a.destinations && agent.fuel <= a.fuel
      invariant agent.fuel > 0 || agent.fuel == a.fuel
      invariant a.delivered <= 0 ==> agent.delivered == a.delivered
      invariant startsOnOnlyPackage ==> (agent.x, agent.y) == (a.x, a.y) && agent.packages == a.packages
    {
      var (px, py) := points[i];
      var plan := PlanPathTo(agent, px, py, algorithm, oracles(i), budget);
      if plan.UnknownAlgorithm? {
        return MissionRaised;
      }
      if !plan.found {
        return Mission(false, agent, i);
      }
      var arrived;
      arrived, agent := TravelTo(plan.agent, px, py);
      TravelledFacts(plan.agent, agent, px, py);
      if !arrived {
        return Mission(false, agent, i);
      }
      i := i + 1;
    }
    r := Mission(|agent.packages| == 0, agent, i);
  }
}

=== FILE: annealing.dfy ===
/** The simulated-annealing planner: it seeds itself with an A* route and
    then repeatedly tries to replace one interior waypoint by a detour cell,
    always accepting routes that are no costlier and costlier ones by a
    temperature-driven chance. Randomness is supplied by an oracle. */
module Annealing {
  import opened Basics
  import opened Environment
  import opened Nodes
  import opened Search

  /** The planner's source of randomness, one draw per iteration `i`:
      `pick(i)` chooses the waypoint to modify, `order(i)` is the shuffled
      direction list, and `accept(i, temperature, currentCost, newCost)` is the
      Metropolis coin `random() < exp((currentCost - newCost) / temperature)`
      for a candidate whose acceptance probability is below 1. */
  datatype Oracle = Oracle(
    pick: nat -> nat,
    order: nat -> seq<Direction>,
    accept: (nat, real, int, int) -> bool)

  const MaxIterations: nat := 1000
  const InitialTemperature: real := 100.0
  const CoolingRate: real := 0.95

  /** The annealing state: the current route, its cost and the temperature. */
  datatype Annealing = Annealing(path: seq<Pos>, cost: int, temperature: real)

  /** An iteration either goes on from a new state or raises out of the
      acceptance test. */
  datatype StepOutcome = Raised | Next(state: Annealing)

  /** The natural logarithm of the largest double: `math.exp` raises
      `OverflowError` above it. */
  const MaxExpArgument: real := 709.782712893384

  /** The temperature after one iteration's cooling. */
  function Cooled(temperature: real, cooling: real): real
  {
    temperature * cooling
  }

  /** Cooling keeps the sign of a temperature under a rate of that sign. */
  lemma CooledSign(temperature: real, cooling: real)
    ensures temperature > 0.0 && cooling > 0.0 ==> Cooled(temperature, cooling) > 0.0
    ensures temperature >= 0.0 && cooling >= 0.0 ==> Cooled(temperature, cooling) >= 0.0
    ensures temperature == 0.0 ==> Cooled(temperature, cooling) == 0.0
  {
  }

  /** Whether computing the acceptance probability
      `exp((cost - newCost) / temperature)` raises: only when `math.exp`
      overflows. The costs are numpy integers, so a division by a zero
      temperature does not raise but gives an infinity or nan. */
  predicate ExpRaises(temperature: real, cost: int, newCost: int)
  {
    temperature != 0.0 && (cost - newCost) as real / temperature > MaxExpArgument
  }

  /** The waypoint chosen for modification: uniformly among the interior
      indices `1 .. |path| - 2`, driven by the draw `pick`. */
  function ModifyIndex(path: seq<Pos>, pick: nat): (k: nat)
    requires |path| > 2
    ensures 1 <= k <= |path| - 2
  {
    1 + pick % (|path| - 2)
  }

  /** Moving from `prev` in direction `d` gives a detour cell that differs
      from both neighbours, is enterable at time `t`, and is one step from `next`. */
  predicate Qualifies(g: Grid, prev: Pos, next: Pos, d: Direction, t: int)
    requires Shaped(g) && MoversHavePaths(g)
  {
    var alt := Step(prev, d);
    alt != prev && alt != next && IsValid(g, alt.0, alt.1, t) && Adjacent(alt, next)
  }

  /** The first direction in `dirs` giving a qualifying detour, if any. */
  function FindAlternative(g: Grid, prev: Pos, next: Pos, dirs: seq<Direction>, t: int): (r: Option<nat>)
    requires Shaped(g) && MoversHavePaths(g)
    ensures r.Some? ==> r.value < |dirs| && Qualifies(g, prev, next, dirs[r.value], t)
    ensures r.Some? ==> forall i :: 0 <= i < r.value ==> !Qualifies(g, prev, next, dirs[i], t)
    ensures r.None? ==> forall i :: 0 <= i < |dirs| ==> !Qualifies(g, prev, next, dirs[i], t)
  {
    if dirs == [] then None
    else if Qualifies(g, prev, next, dirs[0], t) then Some(0)
    else
      match FindAlternative(g, prev, next, dirs[1..], t)
      case None => None
      case Some(k) => Some(k + 1)
  }

  /** The neighbour route: waypoint `k` replaced by the first qualifying
      detour, or `None` when no direction qualifies. */
  function Candidate(g: Grid, path: seq<Pos>, k: nat, dirs: seq<Direction>, t0: int): (r: Option<seq<Pos>>)
    requires Shaped(g) && MoversHavePaths(g)
    requires 1 <= k < |path| - 1
    ensures r.Some? ==> |r.value| == |path|
    ensures r.Some? ==> forall j :: 0 <= j < |path| && j != k ==> r.value[j] == path[j]
    ensures r.Some? ==> Adjacent(path[k - 1], r.value[k]) && Adjacent(r.value[k], path[k + 1])
    ensures r.Some? ==> r.value[k] != path[k + 1] && IsValid(g, r.value[k].0, r.value[k].1, t0 + k)
    ensures r.None? <==> forall i :: 0 <= i < |dirs| ==> !Qualifies(g, path[k - 1], path[k + 1], dirs[i], t0 + k)
  {
    match FindAlternative(g, path[k - 1], path[k + 1], dirs, k + t0)
    case None => None
    case Some(i) =>
      var alt := Step(path[k - 1], dirs[i]);
      AdjacentIffStep(path[k - 1], alt);
      Some(path[k := alt])
  }

  /** A detour keeps the route a walk that can be entered step by step:
      the re-validation of a candidate therefore never rejects it. */
  lemma CandidateStaysValid(g: Grid, path: seq<Pos>, k: nat, dirs: seq<Direction>, t0: int)
    requires Shaped(g) && MoversHavePaths(g)
    requires 1 <= k < |path| - 1 && IsWalk(path) && EnterableFrom(g, path, t0)
    requires Candidate(g, path, k, dirs, t0).Some?
    ensures IsWalk(Candidate(g, path, k, dirs, t0).value)
    ensures EnterableFrom(g, Candidate(g, path, k, dirs, t0).value, t0)
  {
    var c := Candidate(g, path, k, dirs, t0).value;
    forall j | 1 <= j < |c|
      ensures Adjacent(c[j - 1], c[j]) && IsValid(g, c[j].0, c[j].1, t0 + j)
    {
      assert Adjacent(path[j - 1], path[j]) && IsValid(g, path[j].0, path[j].1, t0 + j);
    }
  }

  /** The re-validation of a candidate: its terrain cost when every position
      after the first is enterable at its time step, `None` otherwise. */
  function CostIfValid(g: Grid, w: seq<Pos>, t0: int): (r: Option<int>)
    requires Shaped(g) && MoversHavePaths(g)
    ensures r.Some? <==> EnterableFrom(g, w, t0)
    ensures r.Some? ==> CellsInBounds(g, w) && r.value == PathCost(g, w)
    decreases |w|
  {
    if |w| <= 1 then Some(0)
    else
      var u := w[..|w| - 1];
      var last := w[|w| - 1];
      assert forall j :: 1 <= j < |u| ==> u[j] == w[j];
      match CostIfValid(g, u, t0)
      case None => None
      case Some(c) =>
        if IsValid(g, last.0, last.1, t0 + |w| - 1) then Some(c + GetCost(g, last.0, last.1)) else None
  }

  /** A route the annealing may hold: same length and endpoints as the seed,
      a walk enterable step by step from time `t0`, its cost accounted. */
  predicate Sound(g: Grid, path: seq<Pos>, cost: int, seed: seq<Pos>, t0: int)
    requires Shaped(g) && MoversHavePaths(g)
  {
    && |path| == |seed| >= 1
    && path[0] == seed[0] && path[|path| - 1] == seed[|seed| - 1]
    && IsWalk(path) && EnterableFrom(g, path, t0) && CellsInBounds(g, path)
    && cost == PathCost(g, path)
  }

  /** The acceptance test for a valid candidate that is not strictly cheaper,
      `random() < exp((cost - newCost) / temperature)` with `coin` standing
      for the draw: None when it raises, otherwise whether the candidate is
      adopted. At temperature zero the exponent is +inf, nan or -inf, so
      only a strictly cheaper candidate passes. */
  function Metropolis(temperature: real, cost: int, newCost: int, coin: bool): (r: Option<bool>)
    ensures r.None? <==> ExpRaises(temperature, cost, newCost)
    ensures temperature == 0.0 ==> r == Some(cost > newCost)
    ensures temperature != 0.0 && r.Some? && (cost - newCost) as real / temperature >= 0.0 ==> r.value
    ensures temperature != 0.0 && r.Some? && (cost - newCost) as real / temperature < 0.0 ==> r.value == coin
  {
    if temperature == 0.0 then Some(cost > newCost)
    else
      var exponent := (cost - newCost) as real / temperature;
      if exponent > MaxExpArgument then None
      else if exponent >= 0.0 then Some(true)
      else Some(coin)
  }

  /** At a positive temperature the test never raises; a candidate of equal
      cost is always adopted, since its probability `exp(0)` is 1, and a
      costlier one exactly when the coin says so. */
  lemma MetropolisPositive(temperature: real, cost: int, newCost: int, coin: bool)
    requires temperature > 0.0 && newCost >= cost
    ensures Metropolis(temperature, cost, newCost, coin) == Some(newCost == cost || coin)
  {
    var d := (cost - newCost) as real;
    if newCost > cost {
      assert d < 0.0;
      assert d / temperature < 0.0 by {
        assert d / temperature * temperature == d;
      }
    }
  }

  /** At temperature zero a candidate that is not strictly cheaper is
      rejected whatever the coin, its probability being nan or `exp(-inf)`;
      at a negative temperature it is adopted whatever the coin, unless the
      exponent overflows. */
  lemma MetropolisNonPositive(temperature: real, cost: int, newCost: int, coin: bool)
    requires temperature <= 0.0 && newCost >= cost
    ensures temperature == 0.0 ==> Metropolis(temperature, cost, newCost, coin) == Some(false)
    ensures temperature < 0.0 && !ExpRaises(temperature, cost, newCost) ==>
              Metropolis(temperature, cost, newCost, coin) == Some(true)
  {
    if temperature < 0.0 {
      var d := (cost - newCost) as real;
      assert d <= 0.0;
      assert d / temperature >= 0.0 by {
        assert d / temperature * temperature == d;
      }
    }
  }

  /** Whether a valid candidate of cost `newCost` replaces the current route,
      `coin` standing for the draw: a strictly cheaper one always does, any
      other goes through the acceptance test. None when that test raises. */
  function Adopt(s: Annealing, newCost: int, coin: bool): (r: Option<bool>)
    ensures r.None? ==> s.temperature < 0.0 && newCost >= s.cost
    ensures newCost < s.cost ==> r == Some(true)
    ensures s.temperature > 0.0 ==> r == Some(newCost <= s.cost || coin)
    ensures s.temperature == 0.0 ==> r == Some(newCost < s.cost)
  {
    if newCost < s.cost then Some(true)
    else if s.temperature > 0.0 then
      MetropolisPositive(s.temperature, s.cost, newCost, coin);
      Metropolis(s.temperature, s.cost, newCost, coin)
    else Metropolis(s.temperature, s.cost, newCost, coin)
  }

  /** The rest of an iteration once the detour route `c` is found: it is
      revalidated, adopted or not, and the temperature cools. */
  function Settle(g: Grid, s: Annealing, c: seq<Pos>, i: nat, oracle: Oracle, t0: int, cooling: real): (r: StepOutcome)
    requires Shaped(g) && MoversHavePaths(g)
    ensures r.Raised? ==> s.temperature < 0.0
    ensures r.Next? ==> r.state.temperature == Cooled(s.temperature, cooling)
    ensures r.Next? ==> r.state.path == s.path || r.state.path == c
    ensures r.Next? && r.state.path != s.path && s.temperature > 0.0 ==>
              r.state.cost <= s.cost || oracle.accept(i, s.temperature, s.cost, r.state.cost)
  {
    var cooled := Cooled(s.temperature, cooling);
    match CostIfValid(g, c, t0)
    case None => Next(s.(temperature := cooled))
    case Some(newCost) =>
      match Adopt(s, newCost, oracle.accept(i, s.temperature, s.cost, newCost))
      case None => Raised
      case Some(adopt) => if adopt then Next(Annealing(c, newCost, cooled)) else Next(s.(temperature := cooled))
  }

  /** One iteration `i` of the annealing loop on a route of more than two
      positions. It raises only at a negative temperature. A
      changed route differs only at the chosen waypoint; at a positive
      temperature it was no costlier or accepted by the Metropolis coin. The
      temperature cools exactly when a detour was found. */
  function AnnealStep(g: Grid, s: Annealing, i: nat, oracle: Oracle, t0: int, cooling: real): (r: StepOutcome)
    requires Shaped(g) && MoversHavePaths(g) && |s.path| > 2
    ensures r.Raised? ==> s.temperature < 0.0
    ensures r.Next? ==> |r.state.path| == |s.path|
    ensures r.Next? && r.state.path != s.path && s.temperature > 0.0 ==>
              r.state.cost <= s.cost || oracle.accept(i, s.temperature, s.cost, r.state.cost)
    ensures r.Next? ==> forall j :: 0 <= j < |s.path| && j != ModifyIndex(s.path, oracle.pick(i)) ==> r.state.path[j] == s.path[j]
    ensures Candidate(g, s.path, ModifyIndex(s.path, oracle.pick(i)), oracle.order(i), t0).None? ==> r == Next(s)
    ensures Candidate(g, s.path, ModifyIndex(s.path, oracle.pick(i)), oracle.order(i), t0).Some? && r.Next? ==>
              r.state.temperature == Cooled(s.temperature, cooling)
  {
    var k := ModifyIndex(s.path, oracle.pick(i));
    match Candidate(g, s.path, k, oracle.order(i), t0)
    case None => Next(s)
    case Some(c) =>
      Settle(g, s, c, i, oracle, t0, cooling)
  }

  /** Once a detour is found: at a positive temperature, a valid detour
      that costs no more than the current route, or that the coin accepts,
      is adopted with its cost. */
  lemma SettleAdopts(g: Grid, s: Annealing, c: seq<Pos>, i: nat, oracle: Oracle, t0: int, cooling: real)
    requires Shaped(g) && MoversHavePaths(g)
    ensures CostIfValid(g, c, t0).Some? && s.temperature > 0.0 &&
            (CostIfValid(g, c, t0).value <= s.cost || oracle.accept(i, s.temperature, s.cost, CostIfValid(g, c, t0).value)) ==>
              Settle(g, s, c, i, oracle, t0, cooling) == Next(Annealing(c, CostIfValid(g, c, t0).value, Cooled(s.temperature, cooling)))
  {
  }

  /** Once a detour is found: a valid detour that is not strictly cheaper
      is rejected at temperature zero, and is adopted at a negative
      temperature unless the exponent overflows. */
  lemma SettleNonPositive(g: Grid, s: Annealing, c: seq<Pos>, i: nat, oracle: Oracle, t0: int, cooling: real)
    requires Shaped(g) && MoversHavePaths(g)
    ensures CostIfValid(g, c, t0).Some? && CostIfValid(g, c, t0).value >= s.cost ==>
              (s.temperature == 0.0 ==> Settle(g, s, c, i, oracle, t0, cooling) == Next(s.(temperature := Cooled(s.temperature, cooling)))) &&
              (s.temperature < 0.0 && !ExpRaises(s.temperature, s.cost, CostIfValid(g, c, t0).value) ==>
                 Settle(g, s, c, i, oracle, t0, cooling) == Next(Annealing(c, CostIfValid(g, c, t0).value, Cooled(s.temperature, cooling))))
  {
    var cv := CostIfValid(g, c, t0);
    if cv.Some? && cv.value >= s.cost && s.temperature <= 0.0 {
      MetropolisNonPositive(s.temperature, s.cost, cv.value, oracle.accept(i, s.temperature, s.cost, cv.value));
    }
  }

  /** Once a detour is found, the iteration is decided by `Settle`. */
  lemma AnnealStepSettles(g: Grid, s: Annealing, i: nat, oracle: Oracle, t0: int, cooling: real)
    requires Shaped(g) && MoversHavePaths(g) && |s.path| > 2
    ensures var c := Candidate(g, s.path, ModifyIndex(s.path, oracle.pick(i)), oracle.order(i), t0);
            c.Some? ==> AnnealStep(g, s, i, oracle, t0, cooling) == Settle(g, s, c.value, i, oracle, t0, cooling)
  {
  }

  /** The converse of acceptance: at a positive temperature, a valid detour
      that costs no more than the current route, or that the coin accepts,
      is always adopted with its cost, and the temperature cools. */
  lemma AnnealStepAdopts(g: Grid, s: Annealing, i: nat, oracle: Oracle, t0: int, cooling: real)
    requires Shaped(g) && MoversHavePaths(g) && |s.path| > 2
    ensures var c := Candidate(g, s.path, ModifyIndex(s.path, oracle.pick(i)), oracle.order(i), t0);
            c.Some? && CostIfValid(g, c.value, t0).Some? && s.temperature > 0.0 &&
            (CostIfValid(g, c.value, t0).value <= s.cost || oracle.accept(i, s.temperature, s.cost, CostIfValid(g, c.value, t0).value)) ==>
              AnnealStep(g, s, i, oracle, t0, cooling) == Next(Annealing(c.value, CostIfValid(g, c.value, t0).value, Cooled(s.temperature, cooling)))
  {
    var c := Candidate(g, s.path, ModifyIndex(s.path, oracle.pick(i)), oracle.order(i), t0);
    if c.Some? {
      AnnealStepSettles(g, s, i, oracle, t0, cooling);
      SettleAdopts(g, s, c.value, i, oracle, t0, cooling);
    }
  }

  /** A valid detour that is not strictly cheaper is rejected at temperature
      zero, even at equal cost, and the temperature still cools; at a
      negative temperature it is adopted unless the exponent overflows. */
  lemma AnnealStepNonPositive(g: Grid, s: Annealing, i: nat, oracle: Oracle, t0: int, cooling: real)
    requires Shaped(g) && MoversHavePaths(g) && |s.path| > 2
    ensures var c := Candidate(g, s.path, ModifyIndex(s.path, oracle.pick(i)), oracle.order(i), t0);
            c.Some? && CostIfValid(g, c.value, t0).Some? && CostIfValid(g, c.value, t0).value >= s.cost &&
            s.temperature == 0.0 ==>
              AnnealStep(g, s, i, oracle, t0, cooling) == Next(s.(temperature := Cooled(s.temperature, cooling)))
    ensures var c := Candidate(g, s.path, ModifyIndex(s.path, oracle.pick(i)), oracle.order(i), t0);
            c.Some? && CostIfValid(g, c.value, t0).Some? && CostIfValid(g, c.value, t0).value >= s.cost &&
            s.temperature < 0.0 && !ExpRaises(s.temperature, s.cost, CostIfValid(g, c.value, t0).value) ==>
              AnnealStep(g, s, i, oracle, t0, cooling) == Next(Annealing(c.value, CostIfValid(g, c.value, t0).value, Cooled(s.temperature, cooling)))
  {
    var c := Candidate(g, s.path, ModifyIndex(s.path, oracle.pick(i)), oracle.order(i), t0);
    if c.Some? && CostIfValid(g, c.value, t0).Some? && CostIfValid(g, c.value, t0).value >= s.cost {
      AnnealStepSettles(g, s, i, oracle, t0, cooling);
      SettleNonPositive(g, s, c.value, i, oracle, t0, cooling);
      var r := Settle(g, s, c.value, i, oracle, t0, cooling);
      assert AnnealStep(g, s, i, oracle, t0, cooling) == r;
      if s.temperature < 0.0 && !ExpRaises(s.temperature, s.cost, CostIfValid(g, c.value, t0).value) {
        assert r == Next(Annealing(c.value, CostIfValid(g, c.value, t0).value, Cooled(s.temperature, cooling)));
      }
    }
  }

  /** An annealing step that does not raise keeps the route sound: same
      endpoints and length, a walk that can be entered step by step, and its
      cost accounted. */
  lemma AnnealStepSound(g: Grid, s: Annealing, i: nat, oracle: Oracle, t0: int, cooling: real, seed: seq<Pos>)
    requires Shaped(g) && MoversHavePaths(g) && |s.path| > 2
    requires Sound(g, s.path, s.cost, seed, t0)
    ensures AnnealStep(g, s, i, oracle, t0, cooling).Next? ==>
              Sound(g, AnnealStep(g, s, i, oracle, t0, cooling).state.path, AnnealStep(g, s, i, oracle, t0, cooling).state.cost, seed, t0)
  {
    var k := ModifyIndex(s.path, oracle.pick(i));
    var r := AnnealStep(g, s, i, oracle, t0, cooling);
    var cand := Candidate(g, s.path, k, oracle.order(i), t0);
    if cand.Some? && r.Next? {
      var c := cand.value;
      AnnealStepSettles(g, s, i, oracle, t0, cooling);
      SettleOutcome(g, s, c, i, oracle, t0, cooling);
      if r.state.path == c && CostIfValid(g, c, t0) == Some(r.state.cost) {
        CandidateStaysValid(g, s.path, k, oracle.order(i), t0);
        assert c[0] == s.path[0] && c[|c| - 1] == s.path[|s.path| - 1];
      }
    }
  }

  /** Once a detour is found, the iteration either keeps the route and its
      cost or adopts the detour with its revalidated cost. */
  lemma SettleOutcome(g: Grid, s: Annealing, c: seq<Pos>, i: nat, oracle: Oracle, t0: int, cooling: real)
    requires Shaped(g) && MoversHavePaths(g)
    ensures var r := Settle(g, s, c, i, oracle, t0, cooling);
            r.Next? ==> (r.state.path == s.path && r.state.cost == s.cost) ||
                        (r.state.path == c && CostIfValid(g, c, t0) == Some(r.state.cost))
  {
  }

  /** At a positive temperature and cooling rate an iteration never raises,
      and the temperature stays positive. */
  lemma AnnealStepStaysPositive(g: Grid, s: Annealing, i: nat, oracle: Oracle, t0: int, cooling: real)
    requires Shaped(g) && MoversHavePaths(g) && |s.path| > 2
    requires s.temperature > 0.0 && cooling > 0.0
    ensures AnnealStep(g, s, i, oracle, t0, cooling).Next?
    ensures AnnealStep(g, s, i, oracle, t0, cooling).state.temperature > 0.0
  {
    CooledSign(s.temperature, cooling);
  }

  /** At temperature zero an iteration never raises, the temperature stays
      zero, and the route changes only to a strictly cheaper one: the
      annealing is a greedy descent. */
  lemma AnnealStepAtZero(g: Grid, s: Annealing, i: nat, oracle: Oracle, t0: int, cooling: real)
    requires Shaped(g) && MoversHavePaths(g) && |s.path| > 2
    requires s.temperature == 0.0
    ensures AnnealStep(g, s, i, oracle, t0, cooling).Next?
    ensures AnnealStep(g, s, i, oracle, t0, cooling).state.temperature == 0.0
    ensures AnnealStep(g, s, i, oracle, t0, cooling).state.cost <= s.cost
    ensures AnnealStep(g, s, i, oracle, t0, cooling).state.path != s.path ==>
              AnnealStep(g, s, i, oracle, t0, cooling).state.cost < s.cost
  {
    var c := Candidate(g, s.path, ModifyIndex(s.path, oracle.pick(i)), oracle.order(i), t0);
    if c.Some? {
      AnnealStepSettles(g, s, i, oracle, t0, cooling);
      SettleOutcome(g, s, c.value, i, oracle, t0, cooling);
    }
  }

  /** At a non-negative temperature and cooling rate an iteration never
      raises, and the temperature stays non-negative. */
  lemma AnnealStepStaysNonNegative(g: Grid, s: Annealing, i: nat, oracle: Oracle, t0: int, cooling: real)
    requires Shaped(g) && MoversHavePaths(g) && |s.path| > 2
    requires s.temperature >= 0.0 && cooling >= 0.0
    ensures AnnealStep(g, s, i, oracle, t0, cooling).Next?
    ensures AnnealStep(g, s, i, oracle, t0, cooling).state.temperature >= 0.0
  {
    CooledSign(s.temperature, cooling);
  }

  /** The annealing loop: at most `maxIterations` steps, none at all on a
      route of two positions or fewer. It raises only when the initial
      temperature or the cooling rate is negative; at temperature zero it
      never ends costlier than the seed. */
  method Anneal(g: Grid, seed: seq<Pos>, seedCost: int, t0: int, oracle: Oracle,
                maxIterations: nat, initialTemperature: real, cooling: real)
    returns (raised: bool, path: seq<Pos>, cost: int)
    requires Shaped(g) && MoversHavePaths(g)
    requires Sound(g, seed, seedCost, seed, t0)
    ensures !raised ==> Sound(g, path, cost, seed, t0)
    ensures |seed| <= 2 || maxIterations == 0 ==> !raised && path == seed && cost == seedCost
    ensures initialTemperature >= 0.0 && cooling >= 0.0 ==> !raised
    ensures initialTemperature == 0.0 ==> !raised && cost <= seedCost
  {
    var s := Annealing(seed, seedCost, initialTemperature);
    var i := 0;
    while i < maxIterations
      invariant 0 <= i <= maxIterations
      invariant Sound(g, s.path, s.cost, seed, t0)
      invariant |seed| <= 2 ==> s.path == seed && s.cost == seedCost
      invariant i == 0 ==> s.path == seed && s.cost == seedCost
      invariant initialTemperature >= 0.0 && cooling >= 0.0 ==> s.temperature >= 0.0
      invariant initialTemperature == 0.0 ==> s.temperature == 0.0 && s.cost <= seedCost
    {
      if |s.path| <= 2 {
        break;
      }
      AnnealStepSound(g, s, i, oracle, t0, cooling, seed);
      if initialTemperature >= 0.0 && cooling >= 0.0 {
        AnnealStepStaysNonNegative(g, s, i, oracle, t0, cooling);
      }
      if initialTemperature == 0.0 {
        AnnealStepAtZero(g, s, i, oracle, t0, cooling);
      }
      var step := AnnealStep(g, s, i, oracle, t0, cooling);
      if step.Raised? {
        return true, s.path, s.cost;
      }
      s := step.state;
      i := i + 1;
    }
    raised, path, cost := false, s.path, s.cost;
  }

  /** Turns a route back into a chain of states from time `t0`, accumulating
      terrain cost. */
  method BuildChain(g: Grid, path: seq<Pos>, t0: int) returns (n: Node)
    requires Shaped(g) && MoversHavePaths(g)
    requires |path| >= 1 && IsWalk(path) && EnterableFrom(g, path, t0)
    ensures GetPath(n) == path
    ensures ChainOk(g, n) && CostAccounted(g, n) && RootedAt(n, path[0].0, path[0].1, t0)
  {
    var parent: Option<Node> := None;
    var total := 0;
    var i := 0;
    while i < |path|
      invariant 0 <= i <= |path|
      invariant i == 0 <==> parent.None?
      invariant parent.Some? ==> GetPath(parent.value) == path[..i]
      invariant parent.Some? ==> ChainOk(g, parent.value) && CostAccounted(g, parent.value)
      invariant parent.Some? ==> RootedAt(parent.value, path[0].0, path[0].1, t0)
      invariant parent.Some? ==> parent.value.timeStep == t0 + i - 1 && parent.value.cost == total
      invariant parent.None? ==> total == 0
    {
      var (x, y) := path[i];
      if i > 0 {
        total := total + GetCost(g, x, y);
      }
      var node := Node(x, y, total, i + t0, parent);
      assert path[..i + 1] == path[..i] + [path[i]];
      parent := Some(node);
      i := i + 1;
    }
    assert path[..|path|] == path;
    n := parent.value;
  }

  /** SimulatedAnnealingPlanner.plan: no route when the A* seed fails;
      otherwise a route between the same endpoints with as many moves as the
      seed, its cost the terrain cost of its path, unless the acceptance test
      raises, which needs a negative temperature or cooling rate. */
  method SimulatedAnnealingPlan(g: Grid, sx: int, sy: int, gx: int, gy: int, t0: int, oracle: Oracle,
                                maxIterations: nat, initialTemperature: real, cooling: real, budget: nat)
    returns (raised: bool, r: Option<Node>, seed: Option<Node>)
    requires WellFormed(g)
    ensures raised ==> seed.Some? && r.None? && (initialTemperature < 0.0 || cooling < 0.0)
    ensures !raised ==> (r.None? <==> seed.None?)
    ensures seed.Some? ==> Route(g, seed.value, sx, sy, gx, gy, t0)
    ensures r.Some? ==> Route(g, r.value, sx, sy, gx, gy, t0)
    ensures r.Some? ==> CellsInBounds(g, GetPath(r.value)) && r.value.cost == PathCost(g, GetPath(r.value))
    ensures r.Some? ==> |GetPath(r.value)| == |GetPath(seed.value)|
    ensures r.Some? && (|GetPath(seed.value)| <= 2 || maxIterations == 0) ==> r.value == seed.value
    ensures (sx, sy) == (gx, gy) ==> !raised && r == Some(Node(sx, sy, 0, t0, None))
    ensures initialTemperature == 0.0 ==> !raised && (r.Some? ==> r.value.cost <= seed.value.cost)
  {
    seed := AStarPlan(g, sx, sy, gx, gy, t0, Manhattan, budget);
    if seed.None? {
      return false, None, seed;
    }
    var node;
    raised, node := Refine(g, seed.value, sx, sy, gx, gy, t0, oracle, maxIterations, initialTemperature, cooling);
    r := if raised then None else Some(node);
  }

  /** What the annealing promises of the route it returns for the seed route
      `start`: a route between the same endpoints with as many moves, inside
      the grid, its cost the terrain cost of its path. */
  predicate Refines(g: Grid, start: Node, node: Node, sx: int, sy: int, gx: int, gy: int, t0: int)
    requires Shaped(g) && MoversHavePaths(g)
  {
    && Route(g, node, sx, sy, gx, gy, t0)
    && CellsInBounds(g, GetPath(node)) && node.cost == PathCost(g, GetPath(node))
    && |GetPath(node)| == |GetPath(start)|
  }

  /** The annealing phase on a seed route `start`: the annealing loop run on
      its path and the chain rebuilt from the result, a route between the
      same endpoints with as many moves, and the seed itself when no
      iteration can run; `raised` when the acceptance test raised, the node
      then being the seed, which the planner discards. */
  method Refine(g: Grid, start: Node, sx: int, sy: int, gx: int, gy: int, t0: int, oracle: Oracle,
                maxIterations: nat, initialTemperature: real, cooling: real)
    returns (raised: bool, node: Node)
    requires Shaped(g) && MoversHavePaths(g)
    requires Route(g, start, sx, sy, gx, gy, t0) && CostAccounted(g, start)
    ensures raised ==> initialTemperature < 0.0 || cooling < 0.0
    ensures initialTemperature == 0.0 ==> !raised && node.cost <= start.cost
    ensures !raised ==> Refines(g, start, node, sx, sy, gx, gy, t0)
    ensures |GetPath(start)| <= 2 || maxIterations == 0 ==> !raised && node == start
  {
    var initial := ReconstructPath(start);
    SeedIsSound(g, start, sx, sy, gx, gy, t0);
    var path, cost;
    raised, path, cost := Anneal(g, initial, start.cost, t0, oracle, maxIterations, initialTemperature, cooling);
    if raised {
      return true, start;
    }
    node := Rebuild(g, start, path, cost, sx, sy, gx, gy, t0);
  }

  /** Rebuilds the chain of an annealed route, which stays a route between
      the seed's endpoints and is the seed itself when the route did not
      change. */
  method Rebuild(g: Grid, start: Node, path: seq<Pos>, cost: int,
                 sx: int, sy: int, gx: int, gy: int, t0: int) returns (node: Node)
    requires Shaped(g) && MoversHavePaths(g)
    requires Route(g, start, sx, sy, gx, gy, t0) && CostAccounted(g, start)
    requires Sound(g, path, cost, GetPath(start), t0)
    ensures Refines(g, start, node, sx, sy, gx, gy, t0)
    ensures node.cost == cost
    ensures path == GetPath(start) ==> node == start
  {
    SeedIsSound(g, start, sx, sy, gx, gy, t0);
    node := BuildChain(g, path, t0);
    ResultIsRoute(g, start, node, path, cost, sx, sy, gx, gy, t0);
  }

  /** The A* seed's path is a sound starting point for the annealing. */
  lemma SeedIsSound(g: Grid, start: Node, sx: int, sy: int, gx: int, gy: int, t0: int)
    requires Shaped(g) && MoversHavePaths(g)
    requires Route(g, start, sx, sy, gx, gy, t0) && CostAccounted(g, start)
    ensures Sound(g, GetPath(start), start.cost, GetPath(start), t0)
    ensures GetPath(start)[0] == (sx, sy) && GetPath(start)[|GetPath(start)| - 1] == (gx, gy)
  {
    ChainIsWalk(g, start);
    CostAccountedIsPathCost(g, start);
  }

  /** The chain rebuilt from a sound route is a route between the seed's
      endpoints whose cost is its path's terrain cost; rebuilt from the
      seed's own path it is the seed. */
  lemma ResultIsRoute(g: Grid, start: Node, node: Node, path: seq<Pos>, cost: int,
                      sx: int, sy: int, gx: int, gy: int, t0: int)
    requires Shaped(g) && MoversHavePaths(g)
    requires Route(g, start, sx, sy, gx, gy, t0) && CostAccounted(g, start)
    requires GetPath(start)[0] == (sx, sy) && GetPath(start)[|GetPath(start)| - 1] == (gx, gy)
    requires Sound(g, path, cost, GetPath(start), t0)
    requires GetPath(node) == path && ChainOk(g, node) && CostAccounted(g, node)
    requires RootedAt(node, path[0].0, path[0].1, t0)
    ensures Route(g, node, sx, sy, gx, gy, t0)
    ensures CellsInBounds(g, GetPath(node)) && node.cost == PathCost(g, GetPath(node))
    ensures |GetPath(node)| == |GetPath(start)|
    ensures path == GetPath(start) ==> node == start
  {
    CostAccountedIsPathCost(g, node);
    if path == GetPath(start) {
      assert Root(node) == Root(start);
      ChainDeterminedByPath(g, node, start);
    }
  }

  /** Two well-formed, cost-accounted chains with the same root and the same
      path are the same chain. */
  lemma {:induction false} ChainDeterminedByPath(g: Grid, a: Node, b: Node)
    requires Shaped(g) && MoversHavePaths(g)
    requires ChainOk(g, a) && CostAccounted(g, a) && ChainOk(g, b) && CostAccounted(g, b)
    requires GetPath(a) == GetPath(b) && Root(a) == Root(b)
    ensures a == b
  {
    match a.parent
    case None =>
      assert b.parent.None?;
    case Some(p) =>
      var q := b.parent.value;
      assert GetPath(p) == GetPath(a)[..|GetPath(a)| - 1] == GetPath(q);
      ChainDeterminedByPath(g, p, q);
  }
}

=== FILE: basics.dfy ===
/** Small shared vocabulary: an optional value and exact integer division facts. */
module Basics {

  /** Python's `None` or a value. */
  datatype Option<+T> = None | Some(value: T)

  /** Division and remainder by a positive divisor are determined by the
      equation `a == d * q + r` with `0 <= r < d`. */
  lemma DivModUnique(a: int, d: int, q: int, r: int)
    requires d > 0 && 0 <= r < d && a == d * q + r
    ensures a / d == q && a % d == r
  {
    var q0, r0 := a / d, a % d;
    assert d * (q - q0) == r0 - r;
    MulAwayFromZero(d, q - q0);
  }

  /** A non-zero multiple of a positive number is at least that number in size. */
  lemma MulAwayFromZero(d: int, k: int)
    requires d > 0
    ensures k >= 1 ==> d * k >= d
    ensures k <= -1 ==> d * k <= -d
  {
    if k >= 1 {
      assert d * k == d + d * (k - 1);
    } else if k <= -1 {
      assert d * k == -d + d * (k + 1);
    }
  }

  /** Adding an integer before or after reducing modulo `n` gives the same residue. */
  lemma ModAddCongruence(a: int, b: int, n: int)
    requires n > 0
    ensures (a % n + b) % n == (a + b) % n
  {
    var s := a % n + b;
    var q := s / n;
    DivModUnique(a + b, n, a / n + q, s % n);
  }
}

=== FILE: environment.dfy ===
/** The world the delivery agent moves in: terrain kinds, the four moves,
    moving obstacles on cyclic paths, and the grid of occupancy and terrain
    cost that answers "can this cell be entered at this time step?". */
module Environment {
  import opened Basics

  /** A cell coordinate `(x, y)`; `y` selects the row. */
  type Pos = (int, int)

  /** Terrain kinds and the cost of entering a cell of that kind. */
  datatype Terrain = Road | Grass | Mud | Water {
    function Value(): int {
      match this
      case Road => 1
      case Grass => 3
      case Mud => 5
      case Water => 10
    }
  }

  /** Looking a terrain kind up by its cost value; any other value is rejected. */
  function TerrainOf(v: int): (r: Option<Terrain>)
    ensures r.Some? ==> r.value.Value() == v
  {
    if v == 1 then Some(Road)
    else if v == 3 then Some(Grass)
    else if v == 5 then Some(Mud)
    else if v == 10 then Some(Water)
    else None
  }

  /** A stored terrain value is one that names a terrain kind. */
  predicate IsTerrainValue(v: int) {
    TerrainOf(v).Some?
  }

  /** Every terrain kind is found again from its value, so the stored values
      are exactly the four costs and each is at least the road cost. */
  lemma TerrainRoundTrip(t: Terrain)
    ensures TerrainOf(t.Value()) == Some(t)
    ensures IsTerrainValue(t.Value()) && t.Value() >= Road.Value()
  {
  }

  /** The cell kinds the occupancy layer stores. */
  const FreeCell: int := 0
  const ObstacleCell: int := 1

  /** The four cardinal moves; `Up` decreases `y`. */
  datatype Direction = Up | Down | Left | Right {
    function Delta(): Pos {
      match this
      case Up => (0, -1)
      case Down => (0, 1)
      case Left => (-1, 0)
      case Right => (1, 0)
    }
  }

  /** The directions in the order every planner tries them. */
  function AllDirections(): seq<Direction> {
    [Up, Down, Left, Right]
  }

  /** The cell one move away in direction `d`. */
  function Step(p: Pos, d: Direction): Pos {
    (p.0 + d.Delta().0, p.1 + d.Delta().1)
  }

  // ---------------------------------------------------------------------
  // Moving obstacles
  // ---------------------------------------------------------------------

  /** An obstacle walking a cyclic waypoint list. `currentStep` indexes the
      waypoint it last reached, `stepCounter` counts ticks since then and
      `speed` is the number of ticks per waypoint advance. */
  datatype MovingObstacle = MovingObstacle(
    x: int, y: int,
    path: seq<Pos>,
    currentStep: int,
    speed: int,
    stepCounter: int)

  /** A freshly built obstacle: it starts at the first index with a zero counter. */
  function NewObstacle(x: int, y: int, path: seq<Pos>, speed: int): (o: MovingObstacle)
    ensures o.currentStep == 0 && o.stepCounter == 0
    ensures o.path == path && o.speed == speed && (o.x, o.y) == (x, y)
  {
    MovingObstacle(x, y, path, 0, speed, 0)
  }

  /** The state an obstacle keeps while it is moved with a positive speed. */
  predicate ObstacleInvariant(o: MovingObstacle) {
    && |o.path| > 0
    && o.speed >= 1
    && 0 <= o.currentStep < |o.path|
    && 0 <= o.stepCounter < o.speed
  }

  /** One real tick of the obstacle: the counter grows, and once it reaches
      `speed` it resets and the obstacle advances to the next waypoint. */
  function Move(o: MovingObstacle): (r: MovingObstacle)
    requires |o.path| > 0
    ensures r.path == o.path && r.speed == o.speed
    ensures 0 <= r.currentStep < |r.path| || r.currentStep == o.currentStep
    ensures r.currentStep != o.currentStep ==> (r.x, r.y) == r.path[r.currentStep]
    ensures o.stepCounter + 1 >= o.speed ==>
              r.stepCounter == 0 && 0 <= r.currentStep < |r.path| && (r.x, r.y) == r.path[r.currentStep]
    ensures o.stepCounter + 1 < o.speed ==>
              r.stepCounter == o.stepCounter + 1 && r.currentStep == o.currentStep && (r.x, r.y) == (o.x, o.y)
    ensures ObstacleInvariant(o) ==> ObstacleInvariant(r)
  {
    var counter := o.stepCounter + 1;
    if counter >= o.speed then
      var next := (o.currentStep + 1) % |o.path|;
      o.(stepCounter := 0, currentStep := next, x := o.path[next].0, y := o.path[next].1)
    else
      o.(stepCounter := counter)
  }

  /** `n` consecutive ticks. */
  function Moves(o: MovingObstacle, n: nat): (r: MovingObstacle)
    requires |o.path| > 0
    ensures r.path == o.path && r.speed == o.speed
  {
    if n == 0 then o else Move(Moves(o, n - 1))
  }

  /** The predicted position `t` ticks ahead. The prediction advances one
      waypoint per tick and ignores both `speed` and `stepCounter`. */
  function PositionAt(o: MovingObstacle, t: int): (r: Pos)
    requires |o.path| > 0
    ensures r in o.path
  {
    o.path[(o.currentStep + t) % |o.path|]
  }

  /** At offset zero the prediction is the current waypoint. */
  lemma PositionAtNow(o: MovingObstacle)
    requires |o.path| > 0 && 0 <= o.currentStep < |o.path|
    ensures PositionAt(o, 0) == o.path[o.currentStep]
  {
  }

  /** The prediction repeats with the length of the waypoint list as period. */
  lemma {:induction false} PositionAtPeriodic(o: MovingObstacle, t: int, k: int)
    requires |o.path| > 0
    ensures PositionAt(o, t + k * |o.path|) == PositionAt(o, t)
  {
    var n := |o.path|;
    var a := o.currentStep + t;
    DivModUnique(a + k * n, n, a / n + k, a % n);
  }

  /** The closed form of `n` ticks: the counter is the number of ticks taken
      modulo `speed`, and the index has advanced once per completed `speed`
      ticks, wrapping around the waypoint list. */
  lemma {:induction false} MovesClosedForm(o: MovingObstacle, n: nat)
    requires ObstacleInvariant(o)
    ensures ObstacleInvariant(Moves(o, n))
    ensures Moves(o, n).stepCounter == (o.stepCounter + n) % o.speed
    ensures Moves(o, n).currentStep == (o.currentStep + (o.stepCounter + n) / o.speed) % |o.path|
  {
    var s, len := o.speed, |o.path|;
    if n == 0 {
      DivModUnique(o.stepCounter, s, 0, o.stepCounter);
      DivModUnique(o.currentStep, len, 0, o.currentStep);
    } else {
      var m := Moves(o, n - 1);
      MovesClosedForm(o, n - 1);
      var c := o.stepCounter + n - 1;
      CounterTick(c, s);
      assert Moves(o, n) == Move(m);
      if c % s + 1 >= s {
        ModAddCongruence(o.currentStep + c / s, 1, len);
        assert Move(m).currentStep == (m.currentStep + 1) % len && Move(m).stepCounter == 0;
      } else {
        assert Move(m).currentStep == m.currentStep && Move(m).stepCounter == m.stepCounter + 1;
      }
    }
  }

  /** One more tick either completes a round of `speed` ticks or extends the
      current one. */
  lemma CounterTick(c: int, s: int)
    requires s >= 1
    ensures c % s + 1 >= s ==> (c + 1) % s == 0 && (c + 1) / s == c / s + 1
    ensures c % s + 1 < s ==> (c + 1) % s == c % s + 1 && (c + 1) / s == c / s
  {
    var q, r := c / s, c % s;
    if r + 1 >= s {
      assert s * (q + 1) == s * q + s;
      DivModUnique(c + 1, s, q + 1, 0);
    } else {
      DivModUnique(c + 1, s, q, r + 1);
    }
  }

  /** With speed one the prediction agrees with real ticking: predicting
      `t` ticks ahead after `n` ticks is predicting `n + t` ticks ahead now. */
  lemma PredictionMatchesUnitSpeed(o: MovingObstacle, n: nat, t: int)
    requires ObstacleInvariant(o) && o.speed == 1
    ensures PositionAt(Moves(o, n), t) == PositionAt(o, n + t)
  {
    var m := Moves(o, n);
    var a := o.currentStep + n;
    UnitSpeedIndex(o, n);
    ModAddCongruence(a, t, |o.path|);
    assert m.path == o.path && m.currentStep == a % |o.path|;
    assert (m.currentStep + t) % |m.path| == (o.currentStep + (n + t)) % |o.path|;
  }

  /** At speed one every tick advances the index. */
  lemma UnitSpeedIndex(o: MovingObstacle, n: nat)
    requires ObstacleInvariant(o) && o.speed == 1
    ensures Moves(o, n).currentStep == (o.currentStep + n) % |o.path|
  {
    MovesClosedForm(o, n);
    DivModUnique(n, 1, n, 0);
    assert (o.stepCounter + n) / o.speed == n;
  }


  /** With a slower obstacle the prediction runs ahead of real ticking: one
      tick before the counter reaches `speed` leaves the obstacle on its
      waypoint, while the prediction for one tick ahead already names the
      next waypoint index. */
  lemma PredictionIgnoresSpeed(o: MovingObstacle)
    requires ObstacleInvariant(o) && |o.path| >= 2 && o.stepCounter + 1 < o.speed
    ensures Move(o).currentStep == o.currentStep
    ensures (o.currentStep + 1) % |o.path| != o.currentStep
    ensures PositionAt(o, 1) == o.path[(o.currentStep + 1) % |o.path|]
  {
  }

  // ---------------------------------------------------------------------
  // Grid
  // ---------------------------------------------------------------------

  /** The world: `cells[y][x]` holds the cell kind and `terrain[y][x]` the
      cost of entering the cell. */
  datatype Grid = Grid(
    width: int, height: int,
    cells: seq<seq<int>>,
    terrain: seq<seq<int>>,
    movingObstacles: seq<MovingObstacle>)

  /** A `h` by `w` matrix stored row by row. */
  predicate IsMatrix(m: seq<seq<int>>, w: int, h: int) {
    |m| == h && forall y :: 0 <= y < h ==> |m[y]| == w
  }

  /** The layers have the grid's dimensions. */
  predicate Shaped(g: Grid) {
    g.width >= 0 && g.height >= 0 && IsMatrix(g.cells, g.width, g.height) && IsMatrix(g.terrain, g.width, g.height)
  }

  /** Every moving obstacle has a waypoint to be predicted at. */
  predicate MoversHavePaths(g: Grid) {
    forall i :: 0 <= i < |g.movingObstacles| ==> |g.movingObstacles[i].path| > 0
  }

  /** The static layers as the grid's own operations leave them: shaped,
      occupancy free or blocked, every terrain value a terrain kind. */
  predicate Layered(g: Grid) {
    && Shaped(g)
    && (forall y, x :: 0 <= y < g.height && 0 <= x < g.width ==>
          g.cells[y][x] == FreeCell || g.cells[y][x] == ObstacleCell)
    && (forall y, x :: 0 <= y < g.height && 0 <= x < g.width ==> IsTerrainValue(g.terrain[y][x]))
  }

  /** A grid built by the grid's own operations: its layers as above and
      every moving obstacle with a path. */
  predicate WellFormed(g: Grid) {
    Layered(g) && MoversHavePaths(g)
  }

  predicate InBounds(g: Grid, x: int, y: int) {
    0 <= x < g.width && 0 <= y < g.height
  }

  /** An array index accepted by numpy: negative indices count from the end. */
  predicate IndexOk(i: int, n: int) {
    -n <= i < n
  }

  /** The non-negative position an accepted numpy index refers to. */
  function Wrap(i: int, n: int): (r: int)
    requires IndexOk(i, n)
    ensures 0 <= r < n && (r == i || r == i + n)
  {
    if i < 0 then i + n else i
  }

  /** `grid[y, x]` does not raise. */
  predicate Indexable(g: Grid, x: int, y: int) {
    IndexOk(x, g.width) && IndexOk(y, g.height)
  }

  /** The matrix with the single entry at `(x, y)` replaced. */
  function Set2(m: seq<seq<int>>, x: int, y: int, v: int): (r: seq<seq<int>>)
    requires 0 <= y < |m| && 0 <= x < |m[y]|
    ensures |r| == |m| && forall b :: 0 <= b < |m| ==> |r[b]| == |m[b]|
    ensures forall b, a :: 0 <= b < |m| && 0 <= a < |m[b]| ==>
              r[b][a] == (if a == x && b == y then v else m[b][a])
  {
    m[y := m[y][x := v]]
  }

  /** The matrix with every entry equal to `v`. */
  function Filled(w: nat, h: nat, v: int): (m: seq<seq<int>>)
    ensures IsMatrix(m, w, h)
    ensures forall y, x :: 0 <= y < h && 0 <= x < w ==> m[y][x] == v
  {
    seq(h, _ => seq(w, _ => v))
  }

  /** A new grid; negative dimensions are rejected as numpy rejects them. */
  function NewGrid(width: int, height: int): (r: Option<Grid>)
    ensures r.None? <==> width < 0 || height < 0
    ensures r.Some? ==> WellFormed(r.value) && r.value.width == width && r.value.height == height
    ensures r.Some? ==> r.value.movingObstacles == []
    ensures r.Some? ==> forall y, x :: 0 <= y < height && 0 <= x < width ==>
              r.value.cells[y][x] == FreeCell && r.value.terrain[y][x] == Road.Value()
  {
    if width < 0 || height < 0 then None
    else Some(Grid(width, height, Filled(width, height, FreeCell), Filled(width, height, Road.Value()), []))
  }

  /** Whether an obstacle in `obs` is predicted at `(x, y)` at time `t`,
      checked in list order. */
  predicate MoverAt(obs: seq<MovingObstacle>, x: int, y: int, t: int)
    requires forall i :: 0 <= i < |obs| ==> |obs[i].path| > 0
  {
    |obs| > 0 && (PositionAt(obs[0], t) == (x, y) || MoverAt(obs[1..], x, y, t))
  }

  /** The list walk finds an obstacle exactly when some obstacle is predicted there. */
  lemma {:induction false} MoverAtIff(obs: seq<MovingObstacle>, x: int, y: int, t: int)
    requires forall i :: 0 <= i < |obs| ==> |obs[i].path| > 0
    ensures MoverAt(obs, x, y, t) <==> exists i :: 0 <= i < |obs| && PositionAt(obs[i], t) == (x, y)
  {
    if |obs| > 0 {
      MoverAtIff(obs[1..], x, y, t);
      if MoverAt(obs[1..], x, y, t) {
        var i :| 0 <= i < |obs| - 1 && PositionAt(obs[1..][i], t) == (x, y);
        assert PositionAt(obs[i + 1], t) == (x, y);
      }
      if exists i :: 0 <= i < |obs| && PositionAt(obs[i], t) == (x, y) {
        var i :| 0 <= i < |obs| && PositionAt(obs[i], t) == (x, y);
        if i > 0 {
          assert PositionAt(obs[1..][i - 1], t) == (x, y);
        }
      }
    }
  }

  /** Whether the cell can be entered at time step `t`: inside the grid, not a
      static obstacle, and no moving obstacle predicted there. */
  predicate IsValid(g: Grid, x: int, y: int, t: int)
    requires Shaped(g) && MoversHavePaths(g)
  {
    InBounds(g, x, y) && g.cells[y][x] != ObstacleCell && !MoverAt(g.movingObstacles, x, y, t)
  }

  /** The meaning of `IsValid`: outside the grid nothing is enterable, a static
      obstacle is never enterable, and otherwise the cell is enterable unless
      some moving obstacle's prediction for that time step is the cell. */
  lemma IsValidIff(g: Grid, x: int, y: int, t: int)
    requires Shaped(g) && MoversHavePaths(g)
    ensures !InBounds(g, x, y) ==> !IsValid(g, x, y, t)
    ensures InBounds(g, x, y) && g.cells[y][x] == ObstacleCell ==> !IsValid(g, x, y, t)
    ensures InBounds(g, x, y) && g.cells[y][x] != ObstacleCell ==>
              (IsValid(g, x, y, t) <==>
               forall i :: 0 <= i < |g.movingObstacles| ==> PositionAt(g.movingObstacles[i], t) != (x, y))
  {
    MoverAtIff(g.movingObstacles, x, y, t);
  }

  /** The cost of entering a cell; numpy's negative indices are honoured. */
  function GetCost(g: Grid, x: int, y: int): (r: int)
    requires Shaped(g) && Indexable(g, x, y)
    ensures WellFormed(g) ==> IsTerrainValue(r) && r >= Road.Value()
  {
    g.terrain[Wrap(y, g.height)][Wrap(x, g.width)]
  }

  /** Blocks one cell permanently. */
  function AddObstacle(g: Grid, x: int, y: int): (r: Grid)
    requires Shaped(g) && Indexable(g, x, y)
    ensures Shaped(r) && r.width == g.width && r.height == g.height
    ensures r.terrain == g.terrain && r.movingObstacles == g.movingObstacles
    ensures forall b, a :: 0 <= b < g.height && 0 <= a < g.width ==>
              r.cells[b][a] == (if (a, b) == (Wrap(x, g.width), Wrap(y, g.height)) then ObstacleCell else g.cells[b][a])
    ensures Layered(g) ==> Layered(r)
    ensures WellFormed(g) ==> WellFormed(r)
  {
    g.(cells := Set2(g.cells, Wrap(x, g.width), Wrap(y, g.height), ObstacleCell))
  }

  /** After `AddObstacle` the blocked cell is never enterable, and every other
      cell is enterable exactly when it was before. */
  lemma AddObstacleBlocksOnlyThatCell(g: Grid, x: int, y: int, a: int, b: int, t: int)
    requires Shaped(g) && MoversHavePaths(g) && InBounds(g, x, y)
    ensures !IsValid(AddObstacle(g, x, y), x, y, t)
    ensures (a, b) != (x, y) ==> (IsValid(AddObstacle(g, x, y), a, b, t) <==> IsValid(g, a, b, t))
    ensures GetCost(AddObstacle(g, x, y), x, y) == GetCost(g, x, y)
  {
  }

  /** Sets the terrain kind, and with it the cost, of one cell. */
  function SetTerrain(g: Grid, x: int, y: int, kind: Terrain): (r: Grid)
    requires Shaped(g) && Indexable(g, x, y)
    ensures Shaped(r) && r.width == g.width && r.height == g.height
    ensures r.cells == g.cells && r.movingObstacles == g.movingObstacles
    ensures GetCost(r, x, y) == kind.Value()
    ensures forall b, a :: 0 <= b < g.height && 0 <= a < g.width && (a, b) != (Wrap(x, g.width), Wrap(y, g.height)) ==>
              GetCost(r, a, b) == GetCost(g, a, b)
    ensures Layered(g) ==> Layered(r)
    ensures WellFormed(g) ==> WellFormed(r)
  {
    TerrainRoundTrip(kind);
    g.(terrain := Set2(g.terrain, Wrap(x, g.width), Wrap(y, g.height), kind.Value()))
  }

  /** Appends a moving obstacle to the grid's list. */
  function AddMovingObstacle(g: Grid, o: MovingObstacle): (r: Grid)
    ensures r.movingObstacles == g.movingObstacles + [o]
    ensures r.width == g.width && r.height == g.height && r.cells == g.cells && r.terrain == g.terrain
    ensures MoversHavePaths(g) && |o.path| > 0 ==> MoversHavePaths(r)
  {
    g.(movingObstacles := g.movingObstacles + [o])
  }

  /** An added obstacle blocks exactly the cells it is predicted at. */
  lemma AddMovingObstacleValidity(g: Grid, o: MovingObstacle, x: int, y: int, t: int)
    requires Shaped(g) && MoversHavePaths(g) && |o.path| > 0
    ensures IsValid(AddMovingObstacle(g, o), x, y, t) <==> IsValid(g, x, y, t) && PositionAt(o, t) != (x, y)
  {
    var r := AddMovingObstacle(g, o);
    IsValidIff(g, x, y, t);
    IsValidIff(r, x, y, t);
    if InBounds(g, x, y) && g.cells[y][x] != ObstacleCell {
      assert r.movingObstacles[|g.movingObstacles|] == o;
      forall i | 0 <= i < |g.movingObstacles|
        ensures r.movingObstacles[i] == g.movingObstacles[i]
      {
      }
    }
  }

  /** One real tick of every moving obstacle; the static layers are untouched. */
  function UpdateMovingObstacles(g: Grid): (r: Grid)
    requires MoversHavePaths(g)
    ensures r.width == g.width && r.height == g.height && r.cells == g.cells && r.terrain == g.terrain
    ensures |r.movingObstacles| == |g.movingObstacles|
    ensures forall i :: 0 <= i < |g.movingObstacles| ==> r.movingObstacles[i] == Move(g.movingObstacles[i])
    ensures WellFormed(g) ==> WellFormed(r)
    ensures (forall i :: 0 <= i < |g.movingObstacles| ==> ObstacleInvariant(g.movingObstacles[i])) ==>
              forall i :: 0 <= i < |r.movingObstacles| ==> ObstacleInvariant(r.movingObstacles[i])
  {
    g.(movingObstacles := seq(|g.movingObstacles|, i requires 0 <= i < |g.movingObstacles| => Move(g.movingObstacles[i])))
  }
}

=== FILE: gridformat.dfy ===
/** The grid file format, one line per record, each line a sequence of
    integer tokens:
      width height
      number of static obstacles, then one `x y` line per obstacle
      one line of terrain values per row
      number of moving obstacles, then per obstacle
        `x y n x1 y1 ... xn yn speed`
    Loading rebuilds a grid from such lines with the grid's own operations,
    failing (`None`) wherever the loader would raise. */
module GridFormat {
  import opened Basics
  import opened Environment

  /** The integer tokens of one line. */
  type Line = seq<int>

  /** A count read from the file: a negative count runs no iterations. */
  function Count(n: int): nat {
    if n < 0 then 0 else n
  }

  // ---------------------------------------------------------------------
  // Saving
  // ---------------------------------------------------------------------

  /** The blocked cells of one row, left to right. */
  function RowObstacles(row: seq<int>, y: int): (r: seq<Pos>)
    ensures forall p :: p in r <==> p.1 == y && 0 <= p.0 < |row| && row[p.0] == ObstacleCell
    decreases |row|
  {
    if row == [] then []
    else
      var init := row[..|row| - 1];
      assert forall x :: 0 <= x < |init| ==> init[x] == row[x];
      RowObstacles(init, y) + (if row[|row| - 1] == ObstacleCell then [(|row| - 1, y)] else [])
  }

  /** The blocked cells of the occupancy layer in row-major order. */
  function ObstaclesOf(cells: seq<seq<int>>): (r: seq<Pos>)
    ensures forall p :: p in r <==> 0 <= p.1 < |cells| && 0 <= p.0 < |cells[p.1]| && cells[p.1][p.0] == ObstacleCell
    decreases |cells|
  {
    if cells == [] then []
    else
      var init := cells[..|cells| - 1];
      assert forall y :: 0 <= y < |init| ==> init[y] == cells[y];
      ObstaclesOf(init) + RowObstacles(cells[|cells| - 1], |cells| - 1)
  }

  /** The waypoints as a flat token list `x1 y1 ... xn yn`. */
  function Flatten(path: seq<Pos>): (r: seq<int>)
    ensures |r| == 2 * |path|
    ensures forall i :: 0 <= i < |path| ==> r[2 * i] == path[i].0 && r[2 * i + 1] == path[i].1
  {
    if path == [] then []
    else
      var rest := Flatten(path[1..]);
      assert forall i :: 1 <= i < |path| ==> path[1..][i - 1] == path[i];
      [path[0].0, path[0].1] + rest
  }

  /** A moving obstacle's line: current position, waypoints, speed. */
  function EncodeMover(o: MovingObstacle): Line {
    [o.x, o.y, |o.path|] + Flatten(o.path) + [o.speed]
  }

  /** The lines the grid is saved as. */
  function Encode(g: Grid): seq<Line> {
    var obstacles := ObstaclesOf(g.cells);
    [[g.width, g.height], [|obstacles|]]
    + seq(|obstacles|, i requires 0 <= i < |obstacles| => [obstacles[i].0, obstacles[i].1])
    + g.terrain
    + [[|g.movingObstacles|]]
    + seq(|g.movingObstacles|, i requires 0 <= i < |g.movingObstacles| => EncodeMover(g.movingObstacles[i]))
  }

  // ---------------------------------------------------------------------
  // Loading
  // ---------------------------------------------------------------------

  /** Reads `k` obstacle lines from line `i` on, blocking each cell; a line
      without exactly two tokens, or a cell numpy cannot index, fails. */
  function AddObstacles(g: Grid, lines: seq<Line>, i: nat, k: nat): (r: Option<Grid>)
    requires Shaped(g)
    ensures r.Some? ==> Shaped(r.value) && r.value.width == g.width && r.value.height == g.height
    ensures r.Some? ==> r.value.terrain == g.terrain && r.value.movingObstacles == g.movingObstacles
    ensures r.Some? && Layered(g) ==> Layered(r.value)
    decreases k
  {
    if k == 0 then Some(g)
    else if i >= |lines| || |lines[i]| != 2 || !Indexable(g, lines[i][0], lines[i][1]) then None
    else AddObstacles(AddObstacle(g, lines[i][0], lines[i][1]), lines, i + 1, k - 1)
  }

  /** Sets the terrain of row `y` from the values of `row`, from column `x`
      on; a value naming no terrain kind, or a column past the grid, fails. */
  function SetTerrainRow(g: Grid, row: Line, y: nat, x: nat): (r: Option<Grid>)
    requires Shaped(g) && y < g.height
    ensures r.Some? ==> Shaped(r.value) && r.value.width == g.width && r.value.height == g.height
    ensures r.Some? ==> r.value.cells == g.cells && r.value.movingObstacles == g.movingObstacles
    ensures r.Some? && Layered(g) ==> Layered(r.value)
    decreases |row| - x
  {
    if x >= |row| then Some(g)
    else
      match TerrainOf(row[x])
      case None => None
      case Some(kind) =>
        if !Indexable(g, x, y) then None
        else SetTerrainRow(SetTerrain(g, x, y, kind), row, y, x + 1)
  }

  /** Sets the terrain of rows `y ..` from lines `start + y ..`. */
  function SetTerrainRows(g: Grid, lines: seq<Line>, start: nat, y: nat): (r: Option<Grid>)
    requires Shaped(g)
    ensures r.Some? ==> Shaped(r.value) && r.value.width == g.width && r.value.height == g.height
    ensures r.Some? ==> r.value.cells == g.cells && r.value.movingObstacles == g.movingObstacles
    ensures r.Some? && Layered(g) ==> Layered(r.value)
    decreases g.height - y
  {
    if y >= g.height then Some(g)
    else if start + y >= |lines| then None
    else
      match SetTerrainRow(g, lines[start + y], y, 0)
      case None => None
      case Some(g') => SetTerrainRows(g', lines, start, y + 1)
  }

  /** Reads one moving obstacle: a negative waypoint count gives no
      waypoints, and the speed token is then found by Python's negative
      indexing from the end of the line; missing tokens fail. */
  function ParseMover(parts: Line): (r: Option<MovingObstacle>)
    ensures r.Some? ==> r.value.currentStep == 0 && r.value.stepCounter == 0
    ensures r.Some? ==> |parts| >= 3 && (r.value.x, r.value.y) == (parts[0], parts[1])
    ensures r.Some? ==> |r.value.path| == Count(parts[2]) && r.value.speed in parts
  {
    if |parts| < 3 then None
    else
      var n := Count(parts[2]);
      var speedAt := 3 + 2 * parts[2];
      if |parts| < 3 + 2 * n || !IndexOk(speedAt, |parts|) then None
      else
        var path := seq(n, i requires 0 <= i < n => (parts[3 + 2 * i], parts[4 + 2 * i]));
        Some(NewObstacle(parts[0], parts[1], path, parts[Wrap(speedAt, |parts|)]))
  }

  /** Reads `m` moving-obstacle lines from line `i` on, appending each. */
  function AddMovers(g: Grid, lines: seq<Line>, i: nat, m: nat): (r: Option<Grid>)
    ensures r.Some? ==> r.value.width == g.width && r.value.height == g.height
    ensures r.Some? ==> r.value.cells == g.cells && r.value.terrain == g.terrain
    ensures r.Some? ==> |r.value.movingObstacles| == |g.movingObstacles| + m
    ensures r.Some? ==> r.value.movingObstacles[..|g.movingObstacles|] == g.movingObstacles
    decreases m
  {
    if m == 0 then Some(g)
    else if i >= |lines| then None
    else
      match ParseMover(lines[i])
      case None => None
      case Some(o) => AddMovers(AddMovingObstacle(g, o), lines, i + 1, m - 1)
  }

  /** The static part of the file: dimensions, obstacles and terrain. */
  function LoadLayers(lines: seq<Line>): (r: Option<Grid>)
    ensures r.Some? ==> Layered(r.value) && r.value.movingObstacles == []
    ensures r.Some? ==> |lines| >= 2 && |lines[0]| == 2 && |lines[1]| == 1
    ensures r.Some? ==> r.value.width == lines[0][0] && r.value.height == lines[0][1]
  {
    if |lines| < 2 || |lines[0]| != 2 || |lines[1]| != 1 then None
    else
      match NewGrid(lines[0][0], lines[0][1])
      case None => None
      case Some(empty) =>
        match AddObstacles(empty, lines, 2, Count(lines[1][0]))
        case None => None
        case Some(blocked) => SetTerrainRows(blocked, lines, 2 + Count(lines[1][0]), 0)
  }

  /** Grid.load_from_file on the tokenised lines: the static part, then the
      moving obstacles. */
  function Decode(lines: seq<Line>): (r: Option<Grid>)
    ensures r.Some? ==> Layered(r.value)
    ensures r.Some? ==> |lines| >= 2 && |lines[0]| == 2 && r.value.width == lines[0][0] && r.value.height == lines[0][1]
  {
    match LoadLayers(lines)
    case None => None
    case Some(painted) =>
      var at := 2 + Count(lines[1][0]) + painted.height;
      if at >= |lines| || |lines[at]| != 1 then None
      else AddMovers(painted, lines, at + 1, Count(lines[at][0]))
  }

  // ---------------------------------------------------------------------
  // Saving then loading
  // ---------------------------------------------------------------------

  /** A moving obstacle as loading recreates it: same position, waypoints
      and speed, its counters restarted. */
  function Restarted(o: MovingObstacle): (r: MovingObstacle)
    ensures r.currentStep == 0 && r.stepCounter == 0
    ensures (r.x, r.y, r.path, r.speed) == (o.x, o.y, o.path, o.speed)
  {
    NewObstacle(o.x, o.y, o.path, o.speed)
  }

  /** The grid a save-and-load cycle gives back: the same layers and moving
      obstacles, only the obstacles' counters restarted. */
  function Reloaded(g: Grid): Grid {
    g.(movingObstacles := seq(|g.movingObstacles|, i requires 0 <= i < |g.movingObstacles| => Restarted(g.movingObstacles[i])))
  }

  /** Two matrices of the same shape with the same entries are equal. */
  lemma MatrixExtensionality(a: seq<seq<int>>, b: seq<seq<int>>, w: int, h: int)
    requires IsMatrix(a, w, h) && IsMatrix(b, w, h)
    requires forall y, x :: 0 <= y < h && 0 <= x < w ==> a[y][x] == b[y][x]
    ensures a == b
  {
    forall y | 0 <= y < h
      ensures a[y] == b[y]
    {
      assert forall x :: 0 <= x < w ==> a[y][x] == b[y][x];
    }
  }

  /** A saved moving-obstacle line loads as the restarted obstacle. */
  lemma ParseEncodedMover(o: MovingObstacle)
    ensures ParseMover(EncodeMover(o)) == Some(Restarted(o))
  {
    var parts := EncodeMover(o);
    var n := |o.path|;
    var flat := Flatten(o.path);
    assert parts[2] == n && |parts| == 4 + 2 * n;
    assert parts[3 + 2 * n] == o.speed;
    var path := seq(n, i requires 0 <= i < n => (parts[3 + 2 * i], parts[4 + 2 * i]));
    forall i | 0 <= i < n
      ensures path[i] == o.path[i]
    {
      assert parts[3 + 2 * i] == flat[2 * i];
      assert parts[4 + 2 * i] == flat[2 * i + 1];
    }
    assert path == o.path;
  }

  /** Reading obstacle lines for the positions `ps` blocks exactly those
      cells and leaves the rest of the occupancy layer alone. */
  lemma {:induction false} AddObstaclesEffect(g: Grid, lines: seq<Line>, i: nat, ps: seq<Pos>)
    requires Shaped(g)
    requires i + |ps| <= |lines| && forall j :: 0 <= j < |ps| ==> lines[i + j] == [ps[j].0, ps[j].1]
    requires forall j :: 0 <= j < |ps| ==> InBounds(g, ps[j].0, ps[j].1)
    ensures AddObstacles(g, lines, i, |ps|).Some?
    ensures forall b, a {:trigger AddObstacles(g, lines, i, |ps|).value.cells[b][a]} :: 0 <= b < g.height && 0 <= a < g.width ==>
              AddObstacles(g, lines, i, |ps|).value.cells[b][a] == (if (a, b) in ps then ObstacleCell else g.cells[b][a])
    decreases |ps|
  {
    if ps != [] {
      var p := ps[0];
      var g' := AddObstacle(g, p.0, p.1);
      var rest := ps[1..];
      assert ps == [p] + rest;
      assert lines[i] == [p.0, p.1];
      assert AddObstacles(g, lines, i, |ps|) == AddObstacles(g', lines, i + 1, |rest|);
      assert forall b, a :: 0 <= b < g.height && 0 <= a < g.width ==>
               g'.cells[b][a] == (if (a, b) == p then ObstacleCell else g.cells[b][a]);
      forall j | 0 <= j < |rest|
        ensures lines[i + 1 + j] == [rest[j].0, rest[j].1] && InBounds(g', rest[j].0, rest[j].1)
      {
        assert rest[j] == ps[j + 1];
        assert i + 1 + j == i + (j + 1);
      }
      AddObstaclesEffect(g', lines, i + 1, rest);
    }
  }

  /** Reading a row of valid terrain values no wider than the grid sets
      exactly those cells of the row. */
  lemma {:induction false} SetTerrainRowEffect(g: Grid, row: Line, y: nat, x: nat)
    requires Shaped(g) && y < g.height && |row| <= g.width
    requires forall a :: 0 <= a < |row| ==> IsTerrainValue(row[a])
    ensures SetTerrainRow(g, row, y, x).Some?
    ensures forall b, a {:trigger SetTerrainRow(g, row, y, x).value.terrain[b][a]} :: 0 <= b < g.height && 0 <= a < g.width ==>
              SetTerrainRow(g, row, y, x).value.terrain[b][a] ==
                (if b == y && x <= a < |row| then row[a] else g.terrain[b][a])
    decreases |row| - x
  {
    if x < |row| {
      var kind := TerrainOf(row[x]).value;
      var g' := SetTerrain(g, x, y, kind);
      assert SetTerrainRow(g, row, y, x) == SetTerrainRow(g', row, y, x + 1);
      assert forall b, a :: 0 <= b < g.height && 0 <= a < g.width ==>
               g'.terrain[b][a] == (if b == y && a == x then row[x] else g.terrain[b][a]);
      SetTerrainRowEffect(g', row, y, x + 1);
    }
  }

  /** Reading rows `y ..` of a matrix of valid terrain values of the grid's
      shape, saved at lines `start ..`, sets those rows and leaves the
      earlier ones alone. */
  lemma {:induction false} SetTerrainRowsEffect(g: Grid, lines: seq<Line>, start: nat, rows: seq<Line>, y: nat)
    requires Shaped(g) && IsMatrix(rows, g.width, g.height)
    requires start + |rows| <= |lines| && forall b :: 0 <= b < |rows| ==> lines[start + b] == rows[b]
    requires forall b, a :: 0 <= b < g.height && 0 <= a < g.width ==> IsTerrainValue(rows[b][a])
    ensures SetTerrainRows(g, lines, start, y).Some?
    ensures forall b, a {:trigger SetTerrainRows(g, lines, start, y).value.terrain[b][a]} :: 0 <= b < g.height && 0 <= a < g.width ==>
              SetTerrainRows(g, lines, start, y).value.terrain[b][a] == (if y <= b then rows[b][a] else g.terrain[b][a])
    decreases g.height - y
  {
    if y < g.height {
      var row := rows[y];
      assert lines[start + y] == row;
      SetTerrainRowEffect(g, row, y, 0);
      var g' := SetTerrainRow(g, row, y, 0).value;
      assert SetTerrainRows(g, lines, start, y) == SetTerrainRows(g', lines, start, y + 1);
      SetTerrainRowsEffect(g', lines, start, rows, y + 1);
    }
  }

  /** Reading saved moving-obstacle lines appends the restarted obstacles. */
  lemma {:induction false} AddMoversEffect(g: Grid, lines: seq<Line>, i: nat, os: seq<MovingObstacle>)
    requires i + |os| <= |lines| && forall j :: 0 <= j < |os| ==> lines[i + j] == EncodeMover(os[j])
    ensures AddMovers(g, lines, i, |os|) ==
              Some(g.(movingObstacles := g.movingObstacles + seq(|os|, j requires 0 <= j < |os| => Restarted(os[j]))))
    decreases |os|
  {
    if os != [] {
      ParseEncodedMover(os[0]);
      var g' := AddMovingObstacle(g, Restarted(os[0]));
      var rest := os[1..];
      assert lines[i] == EncodeMover(os[0]);
      assert AddMovers(g, lines, i, |os|) == AddMovers(g', lines, i + 1, |rest|);
      forall j | 0 <= j < |rest|
        ensures lines[i + 1 + j] == EncodeMover(rest[j])
      {
        assert rest[j] == os[j + 1];
        assert i + 1 + j == i + (j + 1);
      }
      AddMoversEffect(g', lines, i + 1, rest);
      var all := seq(|os|, j requires 0 <= j < |os| => Restarted(os[j]));
      var later := seq(|rest|, j requires 0 <= j < |rest| => Restarted(rest[j]));
      assert all == [Restarted(os[0])] + later;
      assert g.movingObstacles + all == g'.movingObstacles + later;
      assert g'.(movingObstacles := g.movingObstacles + all) == g.(movingObstacles := g.movingObstacles + all);
    } else {
      assert seq(|os|, j requires 0 <= j < |os| => Restarted(os[j])) == [];
      assert g.movingObstacles + [] == g.movingObstacles;
      assert g.(movingObstacles := g.movingObstacles) == g;
    }
  }

  /** The saved lines follow the layout `Laid` describes. */
  predicate Laid(g: Grid, lines: seq<Line>)
    requires Shaped(g)
  {
    var obstacles, k := ObstaclesOf(g.cells), |ObstaclesOf(g.cells)|;
    && |lines| == 3 + k + g.height + |g.movingObstacles|
    && lines[0] == [g.width, g.height] && lines[1] == [k]
    && (forall j :: 0 <= j < k ==> lines[2 + j] == [obstacles[j].0, obstacles[j].1])
    && (forall y :: 0 <= y < |g.terrain| ==> lines[2 + k + y] == g.terrain[y])
    && lines[2 + k + g.height] == [|g.movingObstacles|]
    && (forall j :: 0 <= j < |g.movingObstacles| ==> lines[3 + k + g.height + j] == EncodeMover(g.movingObstacles[j]))
  }

  /** Where each record sits in the saved lines. */
  lemma EncodeLayout(g: Grid)
    requires Shaped(g)
    ensures Laid(g, Encode(g))
  {
  }

  /** Lines laid out as a grid's save load its static layers. */
  lemma LayersOfLaid(g: Grid, lines: seq<Line>)
    requires Layered(g) && Laid(g, lines)
    ensures LoadLayers(lines) == Some(g.(movingObstacles := []))
  {
    var obstacles := ObstaclesOf(g.cells);
    var k := |obstacles|;
    assert lines[0] == [g.width, g.height] && lines[1] == [k];

    var empty := NewGrid(g.width, g.height).value;
    AddObstaclesEffect(empty, lines, 2, obstacles);
    var blocked := AddObstacles(empty, lines, 2, k).value;
    MatrixExtensionality(blocked.cells, g.cells, g.width, g.height);

    SetTerrainRowsEffect(blocked, lines, 2 + k, g.terrain, 0);
    var painted := SetTerrainRows(blocked, lines, 2 + k, 0).value;
    MatrixExtensionality(painted.terrain, g.terrain, g.width, g.height);
    assert painted.width == g.width && painted.height == g.height && painted.movingObstacles == [];
    assert painted == g.(movingObstacles := []);
    assert Count(lines[1][0]) == k;
    assert LoadLayers(lines) == SetTerrainRows(blocked, lines, 2 + k, 0);
  }

  /** Lines laid out as a grid's save load as that grid, its moving
      obstacles restarted. */
  lemma DecodeLaid(g: Grid, lines: seq<Line>)
    requires Layered(g) && Laid(g, lines)
    ensures Decode(lines) == Some(Reloaded(g))
  {
    var k, h, m := |ObstaclesOf(g.cells)|, g.height, |g.movingObstacles|;
    LayersOfLaid(g, lines);
    var painted := g.(movingObstacles := []);
    assert lines[1] == [k] && lines[2 + k + h] == [m];
    AddMoversEffect(painted, lines, 3 + k + h, g.movingObstacles);
    assert [] + seq(m, j requires 0 <= j < m => Restarted(g.movingObstacles[j])) == Reloaded(g).movingObstacles;
  }

  /** Loading what was saved gives the grid back, with every moving
      obstacle's counters restarted. */
  lemma DecodeEncode(g: Grid)
    requires Layered(g)
    ensures Decode(Encode(g)) == Some(Reloaded(g))
  {
    EncodeLayout(g);
    DecodeLaid(g, Encode(g));
  }
}

=== FILE: heapq.dfy ===
/** The binary min-heap of Python's `heapq` module, as the best-first
    planners use it: `heappush` appends an entry and sifts it towards the
    root; `heappop` takes the root, moves the last entry into its place,
    sends it down along the smaller children to a leaf and sifts it back
    up. The library moves a hole where these methods swap two entries; the
    arrays left behind are the same. Entries are compared through a rank:
    a pair of integers in lexicographic order. */
module HeapQueue {

  type Rank = (int, int)

  predicate RankLess(a: Rank, b: Rank) {
    a.0 < b.0 || (a.0 == b.0 && a.1 < b.1)
  }

  /** The `<` the heap compares entries with. */
  predicate Lt<T>(rank: T -> Rank, a: T, b: T) {
    RankLess(rank(a), rank(b))
  }

  /** The entry at `i`, if it has a parent, is not less than it. */
  ghost predicate ParentOrdered<T>(rank: T -> Rank, h: seq<T>, i: int) {
    0 < i < |h| ==> !Lt(rank, h[i], h[(i - 1) / 2])
  }

  /** No entry is less than its parent. */
  ghost predicate IsHeap<T>(rank: T -> Rank, h: seq<T>) {
    forall i :: ParentOrdered(rank, h, i)
  }

  /** A heap except perhaps between `pos` and its parent, where the parent
      of `pos` is no greater than the children of `pos`: the state while an
      entry at `pos` is sifted towards the root. */
  ghost predicate HeapBut<T>(rank: T -> Rank, h: seq<T>, pos: nat) {
    && pos < |h|
    && (forall i :: i != pos ==> ParentOrdered(rank, h, i))
    && (0 < pos ==> forall i :: 0 < i < |h| && (i - 1) / 2 == pos ==> !Lt(rank, h[i], h[(pos - 1) / 2]))
  }

  /** A heap except perhaps around `pos`, where the parent of `pos` is no
      greater than the children of `pos`: the state while an entry at `pos`
      is sent down to a leaf. */
  ghost predicate HeapAround<T>(rank: T -> Rank, h: seq<T>, pos: nat) {
    && pos < |h|
    && (forall i :: i != pos && (i - 1) / 2 != pos ==> ParentOrdered(rank, h, i))
    && (0 < pos ==> forall i :: 0 < i < |h| && (i - 1) / 2 == pos ==> !Lt(rank, h[i], h[(pos - 1) / 2]))
  }

  /** Exchanges two entries. */
  function Swap<T>(s: seq<T>, i: nat, j: nat): (r: seq<T>)
    requires i < |s| && j < |s|
    ensures |r| == |s| && r[i] == s[j] && r[j] == s[i]
    ensures forall k :: 0 <= k < |s| && k != i && k != j ==> r[k] == s[k]
    ensures multiset(r) == multiset(s)
  {
    s[i := s[j]][j := s[i]]
  }

  /** The root of a heap is a least entry. */
  lemma {:induction false} RootLeast<T>(rank: T -> Rank, h: seq<T>, i: nat)
    requires IsHeap(rank, h) && i < |h|
    ensures !Lt(rank, h[i], h[0])
    decreases i
  {
    if i > 0 {
      assert ParentOrdered(rank, h, i);
      RootLeast(rank, h, (i - 1) / 2);
    }
  }

  /** Moving an entry that is less than its parent one level up keeps the
      sift-up state. */
  lemma SiftDownStep<T>(rank: T -> Rank, h: seq<T>, pos: nat)
    requires HeapBut(rank, h, pos) && 0 < pos && Lt(rank, h[pos], h[(pos - 1) / 2])
    ensures HeapBut(rank, Swap(h, pos, (pos - 1) / 2), (pos - 1) / 2)
  {
    var p := (pos - 1) / 2;
    var r := Swap(h, pos, p);
    forall i | i != p
      ensures ParentOrdered(rank, r, i)
    {
      if !(0 < i < |r|) {
      } else if i == pos {
      } else if (i - 1) / 2 == pos {
        assert r[i] == h[i];
      } else if (i - 1) / 2 == p {
        assert ParentOrdered(rank, h, i);
        assert r[i] == h[i] && !Lt(rank, h[i], h[p]);
      } else {
        assert ParentOrdered(rank, h, i);
        assert r[i] == h[i] && r[(i - 1) / 2] == h[(i - 1) / 2];
      }
    }
    if 0 < p {
      var gp := (p - 1) / 2;
      forall i | 0 < i < |r| && (i - 1) / 2 == p
        ensures !Lt(rank, r[i], r[gp])
      {
        assert r[gp] == h[gp];
        assert ParentOrdered(rank, h, p);
        if i != pos {
          assert ParentOrdered(rank, h, i);
          assert r[i] == h[i] && !Lt(rank, h[i], h[p]);
        }
      }
    }
  }

  /** `_siftdown(heap, 0, pos)`: moves the entry at `pos` towards the root
      while it is less than its parent. */
  method SiftDown<T>(rank: T -> Rank, h: seq<T>, pos0: nat) returns (r: seq<T>)
    requires HeapBut(rank, h, pos0)
    ensures IsHeap(rank, r)
    ensures |r| == |h| && multiset(r) == multiset(h)
  {
    r := h;
    var pos: nat := pos0;
    while 0 < pos && Lt(rank, r[pos], r[(pos - 1) / 2])
      invariant HeapBut(rank, r, pos)
      invariant |r| == |h| && multiset(r) == multiset(h)
      decreases pos
    {
      SiftDownStep(rank, r, pos);
      r := Swap(r, pos, (pos - 1) / 2);
      pos := (pos - 1) / 2;
    }
  }

  /** Moving the entry at `pos` down to its smaller child (the right one
      unless the left is strictly less) keeps the descent state. */
  lemma SiftUpStep<T>(rank: T -> Rank, h: seq<T>, pos: nat, c: nat)
    requires HeapAround(rank, h, pos) && c < |h| && (c - 1) / 2 == pos && 0 < c
    requires c == 2 * pos + 1 ==> c + 1 >= |h| || Lt(rank, h[c], h[c + 1])
    requires c == 2 * pos + 2 ==> !Lt(rank, h[c - 1], h[c])
    ensures HeapAround(rank, Swap(h, pos, c), c)
  {
    var r := Swap(h, pos, c);
    forall i | i != c && (i - 1) / 2 != c
      ensures ParentOrdered(rank, r, i)
    {
      if !(0 < i < |r|) {
      } else if i == pos {
        assert r[(i - 1) / 2] == h[(i - 1) / 2];
      } else if (i - 1) / 2 == pos {
        assert r[i] == h[i];
      } else {
        assert ParentOrdered(rank, h, i);
        assert r[i] == h[i] && r[(i - 1) / 2] == h[(i - 1) / 2];
      }
    }
    forall i | 0 < i < |r| && (i - 1) / 2 == c
      ensures !Lt(rank, r[i], r[(c - 1) / 2])
    {
      assert ParentOrdered(rank, h, i);
      assert r[i] == h[i];
    }
  }

  /** At a leaf, the descent state is the sift-up state. */
  lemma LeafHeapBut<T>(rank: T -> Rank, h: seq<T>, pos: nat)
    requires HeapAround(rank, h, pos) && 2 * pos + 1 >= |h|
    ensures HeapBut(rank, h, pos)
  {
  }

  /** `_siftup(heap, 0)`: sends the root down along the smaller children to
      a leaf, then sifts it back towards the root. */
  method SiftUp<T>(rank: T -> Rank, h: seq<T>) returns (r: seq<T>)
    requires HeapAround(rank, h, 0)
    ensures IsHeap(rank, r)
    ensures |r| == |h| && multiset(r) == multiset(h)
  {
    r := h;
    var pos: nat := 0;
    while 2 * pos + 1 < |r|
      invariant HeapAround(rank, r, pos)
      invariant |r| == |h| && multiset(r) == multiset(h)
      decreases |r| - pos
    {
      var child := 2 * pos + 1;
      if child + 1 < |r| && !Lt(rank, r[child], r[child + 1]) {
        child := child + 1;
      }
      SiftUpStep(rank, r, pos, child);
      r := Swap(r, pos, child);
      pos := child;
    }
    LeafHeapBut(rank, r, pos);
    r := SiftDown(rank, r, pos);
  }

  /** `heappush`: the entry joins the heap. */
  method HeapPush<T>(rank: T -> Rank, h: seq<T>, x: T) returns (r: seq<T>)
    requires IsHeap(rank, h)
    ensures IsHeap(rank, r)
    ensures |r| == |h| + 1 && multiset(r) == multiset(h) + multiset{x}
  {
    var a := h + [x];
    assert HeapBut(rank, a, |h|) by {
      forall i | i != |h|
        ensures ParentOrdered(rank, a, i)
      {
        if 0 < i < |a| {
          assert ParentOrdered(rank, h, i);
          assert a[i] == h[i] && a[(i - 1) / 2] == h[(i - 1) / 2];
        }
      }
    }
    r := SiftDown(rank, a, |h|);
  }

  /** Moving the last entry to the root leaves the descent state at the
      root, with the entries of the heap but its root. */
  lemma LastToRoot<T>(rank: T -> Rank, h: seq<T>)
    requires IsHeap(rank, h) && |h| > 1
    ensures HeapAround(rank, h[..|h| - 1][0 := h[|h| - 1]], 0)
    ensures multiset(h[..|h| - 1][0 := h[|h| - 1]]) == multiset(h[1..])
  {
    var a := h[..|h| - 1][0 := h[|h| - 1]];
    forall i | i != 0 && (i - 1) / 2 != 0
      ensures ParentOrdered(rank, a, i)
    {
      if 0 < i < |a| {
        assert ParentOrdered(rank, h, i);
        assert a[i] == h[i] && a[(i - 1) / 2] == h[(i - 1) / 2];
      }
    }
    assert a == [h[|h| - 1]] + h[1..|h| - 1];
    assert h[1..] == h[1..|h| - 1] + [h[|h| - 1]];
  }

  /** `heappop`: removes and returns the root, a least entry; the rest of
      the entries stay in the heap. */
  method HeapPop<T>(rank: T -> Rank, h: seq<T>) returns (top: T, r: seq<T>)
    requires IsHeap(rank, h) && |h| > 0
    ensures top == h[0]
    ensures forall i :: 0 <= i < |h| ==> !Lt(rank, h[i], top)
    ensures IsHeap(rank, r)
    ensures |r| == |h| - 1 && multiset(r) == multiset(h[1..])
  {
    forall i | 0 <= i < |h|
      ensures !Lt(rank, h[i], h[0])
    {
      RootLeast(rank, h, i);
    }
    var last := h[|h| - 1];
    var rest := h[..|h| - 1];
    if rest == [] {
      top, r := last, [];
      return;
    }
    top := rest[0];
    LastToRoot(rank, h);
    r := SiftUp(rank, rest[0 := last]);
  }

  /** Pushes the entries one after another, in order. */
  method HeapPushAll<T>(rank: T -> Rank, h: seq<T>, xs: seq<T>) returns (r: seq<T>)
    requires IsHeap(rank, h)
    ensures IsHeap(rank, r)
    ensures |r| == |h| + |xs| && multiset(r) == multiset(h) + multiset(xs)
  {
    r := h;
    var k := 0;
    while k < |xs|
      invariant k <= |xs|
      invariant IsHeap(rank, r)
      invariant |r| == |h| + k && multiset(r) == multiset(h) + multiset(xs[..k])
    {
      assert xs[..k + 1] == xs[..k] + [xs[k]];
      r := HeapPush(rank, r, xs[k]);
      k := k + 1;
    }
    assert xs[..k] == xs;
  }
}

=== FILE: nodes.dfy ===
/** Search states of the time-expanded planners, the Manhattan heuristic,
    path reconstruction from parent links, and the walks and costs the
    planners' results are judged by. */
module Nodes {
  import opened Basics
  import opened Environment

  /** The identity of a search state: position and time step. */
  type Key = (int, int, int)

  /** A search state with the cost of reaching it and a link to the state it
      was expanded from (`None` for the start state). */
  datatype Node = Node(x: int, y: int, cost: int, timeStep: int, parent: Option<Node>)

  function At(n: Node): Pos {
    (n.x, n.y)
  }

  function KeyOf(n: Node): Key {
    (n.x, n.y, n.timeStep)
  }

  /** The heap order: by cost alone. */
  predicate Less(a: Node, b: Node) {
    a.cost < b.cost
  }

  /** Node equality: same position at the same time step, whatever the cost
      or parent. */
  predicate SameState(a: Node, b: Node) {
    a.x == b.x && a.y == b.y && a.timeStep == b.timeStep
  }

  /** The heap order is a strict weak order, and node equality is the
      equality of keys, so it agrees with hashing by key. */
  lemma NodeOrderAndEquality(a: Node, b: Node, c: Node)
    ensures !Less(a, a)
    ensures Less(a, b) && Less(b, c) ==> Less(a, c)
    ensures !Less(a, b) && !Less(b, a) && !Less(b, c) && !Less(c, b) ==> !Less(a, c) && !Less(c, a)
    ensures SameState(a, b) <==> KeyOf(a) == KeyOf(b)
  {
  }

  // ---------------------------------------------------------------------
  // Manhattan distance
  // ---------------------------------------------------------------------

  function Abs(v: int): int {
    if v < 0 then -v else v
  }

  /** `|x1 - x2| + |y1 - y2|`. */
  function Manhattan(x1: int, y1: int, x2: int, y2: int): (r: int)
    ensures r >= 0
    ensures r == 0 <==> x1 == x2 && y1 == y2
  {
    Abs(x1 - x2) + Abs(y1 - y2)
  }

  /** One orthogonal step apart. */
  predicate Adjacent(p: Pos, q: Pos) {
    Manhattan(p.0, p.1, q.0, q.1) == 1
  }

  /** The distance is symmetric and obeys the triangle inequality. */
  lemma ManhattanMetric(x1: int, y1: int, x2: int, y2: int, x3: int, y3: int)
    ensures Manhattan(x1, y1, x2, y2) == Manhattan(x2, y2, x1, y1)
    ensures Manhattan(x1, y1, x3, y3) <= Manhattan(x1, y1, x2, y2) + Manhattan(x2, y2, x3, y3)
  {
  }

  /** Two cells are adjacent exactly when one is a single move from the other. */
  lemma AdjacentIffStep(p: Pos, q: Pos)
    ensures Adjacent(p, q) <==> (q == Step(p, Up) || q == Step(p, Down) || q == Step(p, Left) || q == Step(p, Right))
  {
  }

  // ---------------------------------------------------------------------
  // Parent chains
  // ---------------------------------------------------------------------

  /** The number of ancestors. */
  function Depth(n: Node): nat {
    match n.parent
    case None => 0
    case Some(p) => Depth(p) + 1
  }

  /** The start state the chain grew from. */
  function Root(n: Node): (r: Node)
    ensures r.parent.None?
  {
    match n.parent
    case None => n
    case Some(p) => Root(p)
  }

  /** The positions from the root to `n`, each state after its parent. */
  function GetPath(n: Node): (r: seq<Pos>)
    ensures |r| == Depth(n) + 1
    ensures r[0] == At(Root(n)) && r[|r| - 1] == At(n)
  {
    match n.parent
    case None => [At(n)]
    case Some(p) => GetPath(p) + [At(n)]
  }

  function Reverse<T>(s: seq<T>): (r: seq<T>)
    ensures |r| == |s|
    ensures forall i :: 0 <= i < |s| ==> r[i] == s[|s| - 1 - i]
  {
    if s == [] then [] else Reverse(s[1..]) + [s[0]]
  }

  /** Path reconstruction as the planners do it: collect positions walking up
      the parent links, then reverse. */
  method ReconstructPath(n: Node) returns (path: seq<Pos>)
    ensures path == GetPath(n)
  {
    var collected: seq<Pos> := [];
    var current: Option<Node> := Some(n);
    while current.Some?
      invariant current.Some? ==> GetPath(n) == GetPath(current.value) + Reverse(collected)
      invariant current.None? ==> GetPath(n) == Reverse(collected)
      decreases current
    {
      var c := current.value;
      assert Reverse(collected + [At(c)]) == [At(c)] + Reverse(collected);
      collected := collected + [At(c)];
      current := c.parent;
    }
    path := Reverse(collected);
  }

  // ---------------------------------------------------------------------
  // Walks, chains and their costs
  // ---------------------------------------------------------------------

  /** Consecutive positions are one orthogonal step apart. */
  predicate IsWalk(w: seq<Pos>) {
    forall j :: 1 <= j < |w| ==> Adjacent(w[j - 1], w[j])
  }

  /** Every position after the first can be entered at its time step,
      the first being at time `t0`. */
  predicate EnterableFrom(g: Grid, w: seq<Pos>, t0: int)
    requires Shaped(g) && MoversHavePaths(g)
  {
    forall j :: 1 <= j < |w| ==> IsValid(g, w[j].0, w[j].1, t0 + j)
  }

  /** A route the agent could follow from `start` beginning at time `t0`. */
  predicate ValidWalk(g: Grid, w: seq<Pos>, start: Pos, t0: int)
    requires Shaped(g) && MoversHavePaths(g)
  {
    |w| >= 1 && w[0] == start && IsWalk(w) && EnterableFrom(g, w, t0)
  }

  /** Each state is one step from its parent, one time step later, and
      enterable at its time step. */
  predicate ChainOk(g: Grid, n: Node)
    requires Shaped(g) && MoversHavePaths(g)
  {
    match n.parent
    case None => true
    case Some(p) =>
      && Adjacent(At(p), At(n))
      && n.timeStep == p.timeStep + 1
      && IsValid(g, n.x, n.y, n.timeStep)
      && ChainOk(g, p)
  }

  /** The root costs nothing and each state adds one move. */
  predicate HopCounted(n: Node) {
    match n.parent
    case None => n.cost == 0
    case Some(p) => n.cost == p.cost + 1 && HopCounted(p)
  }

  /** The root costs nothing and each state adds the terrain cost of its cell. */
  predicate CostAccounted(g: Grid, n: Node)
    requires Shaped(g)
  {
    match n.parent
    case None => n.cost == 0
    case Some(p) =>
      && InBounds(g, n.x, n.y)
      && n.cost == p.cost + GetCost(g, n.x, n.y)
      && CostAccounted(g, p)
  }

  /** The chain starts at `(sx, sy)` at time `t0` with cost zero. */
  predicate RootedAt(n: Node, sx: int, sy: int, t0: int) {
    Root(n) == Node(sx, sy, 0, t0, None)
  }

  predicate CellsInBounds(g: Grid, w: seq<Pos>) {
    forall j :: 1 <= j < |w| ==> InBounds(g, w[j].0, w[j].1)
  }

  /** The terrain cost of following `w`: the sum over every position but the first. */
  function PathCost(g: Grid, w: seq<Pos>): int
    requires Shaped(g) && CellsInBounds(g, w)
    decreases |w|
  {
    if |w| <= 1 then 0
    else PathCost(g, w[..|w| - 1]) + GetCost(g, w[|w| - 1].0, w[|w| - 1].1)
  }

  /** Extending a walk by one position adds that position's terrain cost. */
  lemma PathCostSnoc(g: Grid, u: seq<Pos>, q: Pos)
    requires Shaped(g) && |u| >= 1 && CellsInBounds(g, u + [q])
    ensures CellsInBounds(g, u) && InBounds(g, q.0, q.1)
    ensures PathCost(g, u + [q]) == PathCost(g, u) + GetCost(g, q.0, q.1)
  {
    var w := u + [q];
    assert w[|u|] == q;
    assert w[..|w| - 1] == u;
    assert forall j :: 1 <= j < |u| ==> u[j] == w[j];
  }

  /** An enterable walk stays inside the grid, so its cost is defined. */
  lemma EnterableInBounds(g: Grid, w: seq<Pos>, t0: int)
    requires Shaped(g) && MoversHavePaths(g) && EnterableFrom(g, w, t0)
    ensures CellsInBounds(g, w)
  {
  }

  /** Each step costs at least the road cost, so a walk over a well-formed
      grid costs at least its number of moves. */
  lemma {:induction false} PathCostAtLeastMoves(g: Grid, w: seq<Pos>)
    requires WellFormed(g) && CellsInBounds(g, w)
    ensures |w| >= 1 ==> PathCost(g, w) >= |w| - 1
    decreases |w|
  {
    if |w| > 1 {
      var u := w[..|w| - 1];
      assert CellsInBounds(g, u);
      PathCostAtLeastMoves(g, u);
    }
  }

  /** Manhattan distance never overestimates: every walk has at least as many
      moves as the distance between its ends, and so costs at least that much. */
  lemma {:induction false} ManhattanAdmissible(g: Grid, w: seq<Pos>)
    requires WellFormed(g) && CellsInBounds(g, w) && IsWalk(w) && |w| >= 1
    ensures Manhattan(w[0].0, w[0].1, w[|w| - 1].0, w[|w| - 1].1) <= |w| - 1
    ensures Manhattan(w[0].0, w[0].1, w[|w| - 1].0, w[|w| - 1].1) <= PathCost(g, w)
    decreases |w|
  {
    PathCostAtLeastMoves(g, w);
    if |w| > 1 {
      var u := w[..|w| - 1];
      assert CellsInBounds(g, u);
      assert IsWalk(u) by {
        forall j | 1 <= j < |u|
          ensures Adjacent(u[j - 1], u[j])
        {
          assert u[j - 1] == w[j - 1] && u[j] == w[j];
        }
      }
      ManhattanAdmissible(g, u);
      var a, b, c := w[0], w[|w| - 2], w[|w| - 1];
      assert Adjacent(b, c);
      ManhattanMetric(a.0, a.1, b.0, b.1, c.0, c.1);
    }
  }

  /** A well-formed chain is a walk: its path is a valid walk from the root at
      the root's time, and the time grows by one per move. */
  lemma {:induction false} ChainIsWalk(g: Grid, n: Node)
    requires Shaped(g) && MoversHavePaths(g) && ChainOk(g, n)
    ensures ValidWalk(g, GetPath(n), At(Root(n)), Root(n).timeStep)
    ensures n.timeStep == Root(n).timeStep + Depth(n)
  {
    match n.parent
    case None =>
    case Some(p) =>
      ChainIsWalk(g, p);
      var w, u := GetPath(n), GetPath(p);
      assert w == u + [At(n)];
      forall j | 1 <= j < |w|
        ensures Adjacent(w[j - 1], w[j]) && IsValid(g, w[j].0, w[j].1, Root(n).timeStep + j)
      {
        if j < |u| {
          assert w[j - 1] == u[j - 1] && w[j] == u[j];
        }
      }
  }

  /** Cost accounting along a chain is the path's terrain cost. */
  lemma {:induction false} CostAccountedIsPathCost(g: Grid, n: Node)
    requires Shaped(g) && CostAccounted(g, n)
    ensures CellsInBounds(g, GetPath(n))
    ensures n.cost == PathCost(g, GetPath(n))
  {
    match n.parent
    case None =>
    case Some(p) =>
      CostAccountedIsPathCost(g, p);
      var w, u := GetPath(n), GetPath(p);
      assert w == u + [At(n)];
      assert w[..|w| - 1] == u;
  }

  /** Hop counting along a chain is the number of moves on its path. */
  lemma {:induction false} HopCountedIsMoves(n: Node)
    requires HopCounted(n)
    ensures n.cost == Depth(n) == |GetPath(n)| - 1
  {
    match n.parent
    case None =>
    case Some(p) => HopCountedIsMoves(p);
  }
}

=== FILE: search.dfy ===
/** The three exhaustive planners over the time-expanded state space:
    breadth-first, uniform-cost and A*. They share one expansion step and
    differ only in queue discipline and cost accounting. All three mark a
    state visited when it is enqueued. */
module Search {
  import opened Basics
  import opened Environment
  import opened Nodes
  import opened HeapQueue

  /** How a child's cost is derived from its parent's. */
  datatype CostModel = Hops | TerrainCost

  /** The cost of a child entering cell `q` from `parent`. */
  function ChildCost(g: Grid, model: CostModel, parent: Node, q: Pos): int
    requires Shaped(g) && InBounds(g, q.0, q.1)
  {
    match model
    case Hops => parent.cost + 1
    case TerrainCost => parent.cost + GetCost(g, q.0, q.1)
  }

  /** `c` is a successor state of `parent` built by the expansion step. */
  predicate ChildOf(g: Grid, model: CostModel, parent: Node, c: Node)
    requires Shaped(g) && MoversHavePaths(g)
  {
    && c.parent == Some(parent)
    && Adjacent(At(parent), At(c))
    && c.timeStep == parent.timeStep + 1
    && IsValid(g, c.x, c.y, c.timeStep)
    && c.cost == ChildCost(g, model, parent, At(c))
  }

  /** The cost accounting that goes with a cost model. */
  predicate Accounted(g: Grid, model: CostModel, n: Node)
    requires Shaped(g)
  {
    match model
    case Hops => HopCounted(n)
    case TerrainCost => CostAccounted(g, n)
  }

  /** What every state a planner builds satisfies: a well-formed chain from
      the start state with its costs accounted. */
  predicate Planned(g: Grid, model: CostModel, n: Node, sx: int, sy: int, t0: int)
    requires Shaped(g) && MoversHavePaths(g)
  {
    ChainOk(g, n) && Accounted(g, model, n) && RootedAt(n, sx, sy, t0)
  }

  lemma ChildPlanned(g: Grid, model: CostModel, p: Node, c: Node, sx: int, sy: int, t0: int)
    requires Shaped(g) && MoversHavePaths(g)
    requires Planned(g, model, p, sx, sy, t0) && ChildOf(g, model, p, c)
    ensures Planned(g, model, c, sx, sy, t0)
  {
  }

  /** The keys of the states in a queue. */
  function KeySet(q: seq<Node>): set<Key> {
    set i | 0 <= i < |q| :: KeyOf(q[i])
  }

  lemma KeySetConcat(a: seq<Node>, b: seq<Node>)
    ensures KeySet(a + b) == KeySet(a) + KeySet(b)
  {
    forall k | k in KeySet(a + b)
      ensures k in KeySet(a) + KeySet(b)
    {
      var i :| 0 <= i < |a + b| && KeyOf((a + b)[i]) == k;
      if i >= |a| {
        assert KeyOf(b[i - |a|]) == k;
      } else {
        assert KeyOf(a[i]) == k;
      }
    }
    forall k | k in KeySet(a)
      ensures k in KeySet(a + b)
    {
      var i :| 0 <= i < |a| && KeyOf(a[i]) == k;
      assert (a + b)[i] == a[i];
    }
    forall k | k in KeySet(b)
      ensures k in KeySet(a + b)
    {
      var i :| 0 <= i < |b| && KeyOf(b[i]) == k;
      assert (a + b)[|a| + i] == b[i];
    }
  }

  lemma KeySetSingle(n: Node)
    ensures KeySet([n]) == {KeyOf(n)}
  {
    assert KeyOf([n][0]) == KeyOf(n);
  }

  lemma KeySetSplit(q: seq<Node>, m: nat)
    requires m < |q|
    ensures KeySet(q) == KeySet(q[..m] + q[m + 1..]) + {KeyOf(q[m])}
  {
    assert q == q[..m] + [q[m]] + q[m + 1..];
    KeySetConcat(q[..m] + [q[m]], q[m + 1..]);
    KeySetConcat(q[..m], [q[m]]);
    KeySetConcat(q[..m], q[m + 1..]);
    KeySetSingle(q[m]);
  }

  /** The outcome of expanding one state. */
  datatype Expansion = Expansion(children: seq<Node>, visited: set<Key>)

  /** Tries the moves `dirs` in order from `parent`; each enterable successor
      not yet visited becomes a child and is marked visited at once. */
  function Expand(g: Grid, parent: Node, dirs: seq<Direction>, model: CostModel, visited: set<Key>): (r: Expansion)
    requires Shaped(g) && MoversHavePaths(g)
    ensures r.visited == visited + KeySet(r.children)
    ensures forall i :: 0 <= i < |r.children| ==>
              ChildOf(g, model, parent, r.children[i]) && KeyOf(r.children[i]) !in visited
    ensures forall d :: d in dirs && IsValid(g, Step(At(parent), d).0, Step(At(parent), d).1, parent.timeStep + 1) ==>
              (Step(At(parent), d).0, Step(At(parent), d).1, parent.timeStep + 1) in r.visited
    decreases |dirs|
  {
    if dirs == [] then Expansion([], visited)
    else
      var q := Step(At(parent), dirs[0]);
      var t := parent.timeStep + 1;
      if IsValid(g, q.0, q.1, t) && (q.0, q.1, t) !in visited then
        AdjacentIffStep(At(parent), q);
        var child := Node(q.0, q.1, ChildCost(g, model, parent, q), t, Some(parent));
        var rest := Expand(g, parent, dirs[1..], model, visited + {KeyOf(child)});
        KeySetConcat([child], rest.children);
        KeySetSingle(child);
        Expansion([child] + rest.children, rest.visited)
      else
        Expand(g, parent, dirs[1..], model, visited)
  }

  /** Every enterable successor of the state `k` has been visited. */
  predicate SuccessorsVisited(g: Grid, k: Key, visited: set<Key>)
    requires Shaped(g) && MoversHavePaths(g)
  {
    forall d: Direction :: IsValid(g, Step((k.0, k.1), d).0, Step((k.0, k.1), d).1, k.2 + 1) ==>
      (Step((k.0, k.1), d).0, Step((k.0, k.1), d).1, k.2 + 1) in visited
  }

  /** Expanding a state in all four directions visits all its successors. */
  lemma ExpandAllVisitsSuccessors(g: Grid, parent: Node, model: CostModel, visited: set<Key>)
    requires Shaped(g) && MoversHavePaths(g)
    ensures SuccessorsVisited(g, KeyOf(parent), Expand(g, parent, AllDirections(), model, visited).visited)
  {
    var r := Expand(g, parent, AllDirections(), model, visited);
    forall d: Direction
      ensures d in AllDirections()
    {
      match d
      case Up => assert AllDirections()[0] == d;
      case Down => assert AllDirections()[1] == d;
      case Left => assert AllDirections()[2] == d;
      case Right => assert AllDirections()[3] == d;
    }
  }

  /** The closure argument behind both completeness claims: if every visited
      state earlier than `limit` has been expanded, and every expanded state
      had its successors visited, then every walk from the start that ends
      before `limit` ends at an expanded state. */
  lemma {:induction false} WalkReachesExpanded(g: Grid, w: seq<Pos>, t0: int, visited: set<Key>, expanded: set<Key>, limit: int, i: nat)
    requires Shaped(g) && MoversHavePaths(g)
    requires |w| >= 1 && ValidWalk(g, w, w[0], t0) && (w[0].0, w[0].1, t0) in visited
    requires forall k :: k in visited && k.2 < limit ==> k in expanded
    requires forall k :: k in expanded ==> SuccessorsVisited(g, k, visited)
    requires i < |w| && t0 + i < limit
    ensures (w[i].0, w[i].1, t0 + i) in expanded
    decreases i
  {
    if i > 0 {
      WalkReachesExpanded(g, w, t0, visited, expanded, limit, i - 1);
      var k := (w[i - 1].0, w[i - 1].1, t0 + i - 1);
      assert SuccessorsVisited(g, k, visited);
      assert Adjacent(w[i - 1], w[i]);
      AdjacentIffStep(w[i - 1], w[i]);
      assert IsValid(g, w[i].0, w[i].1, t0 + i);
    }
  }

  /** Consequently no walk from the start ending before `limit` reaches the goal,
      when no expanded state is at the goal. */
  lemma ShortWalksMissGoal(g: Grid, start: Pos, t0: int, goal: Pos, visited: set<Key>, expanded: set<Key>, limit: int)
    requires Shaped(g) && MoversHavePaths(g)
    requires (start.0, start.1, t0) in visited
    requires forall k :: k in visited && k.2 < limit ==> k in expanded
    requires forall k :: k in expanded ==> SuccessorsVisited(g, k, visited)
    requires forall k :: k in expanded ==> (k.0, k.1) != goal
    ensures forall w :: ValidWalk(g, w, start, t0) && t0 + |w| - 1 < limit ==> w[|w| - 1] != goal
  {
    forall w | ValidWalk(g, w, start, t0) && t0 + |w| - 1 < limit
      ensures w[|w| - 1] != goal
    {
      WalkReachesExpanded(g, w, t0, visited, expanded, limit, |w| - 1);
    }
  }

  /** Growing the visited set keeps successors visited. */
  lemma SuccessorsVisitedGrow(g: Grid, k: Key, visited: set<Key>, more: set<Key>)
    requires Shaped(g) && MoversHavePaths(g)
    requires SuccessorsVisited(g, k, visited) && visited <= more
    ensures SuccessorsVisited(g, k, more)
  {
  }

  /** The bookkeeping every exhaustive planner keeps: queued states are
      planned states, the visited set is exactly the expanded states and the
      queued ones, the start is visited, no expanded state is at the goal,
      and every expanded state has had its successors visited. */
  ghost predicate FrontierOk(g: Grid, model: CostModel, queue: seq<Node>, visited: set<Key>, expanded: set<Key>,
                             sx: int, sy: int, gx: int, gy: int, t0: int)
    requires Shaped(g) && MoversHavePaths(g)
  {
    && (forall i :: 0 <= i < |queue| ==> Planned(g, model, queue[i], sx, sy, t0))
    && visited == expanded + KeySet(queue)
    && (sx, sy, t0) in visited
    && (forall k :: k in expanded ==> (k.0, k.1) != (gx, gy))
    && (forall k :: k in expanded ==> SuccessorsVisited(g, k, visited))
  }

  /** The queue right after enqueuing the start state. */
  lemma FrontierInit(g: Grid, model: CostModel, sx: int, sy: int, gx: int, gy: int, t0: int)
    requires Shaped(g) && MoversHavePaths(g)
    ensures FrontierOk(g, model, [Node(sx, sy, 0, t0, None)], {(sx, sy, t0)}, {}, sx, sy, gx, gy, t0)
  {
    KeySetSingle(Node(sx, sy, 0, t0, None));
  }

  /** Queued states other than `queue[m]`, and the children of `queue[m]`,
      are all planned states. */
  lemma PlannedAfterStep(g: Grid, model: CostModel, queue: seq<Node>, m: nat, children: seq<Node>,
                         sx: int, sy: int, t0: int)
    requires Shaped(g) && MoversHavePaths(g)
    requires forall i :: 0 <= i < |queue| ==> Planned(g, model, queue[i], sx, sy, t0)
    requires m < |queue|
    requires forall i :: 0 <= i < |children| ==> ChildOf(g, model, queue[m], children[i])
    ensures var q := queue[..m] + queue[m + 1..] + children;
            forall i :: 0 <= i < |q| ==> Planned(g, model, q[i], sx, sy, t0)
  {
    var rest := queue[..m] + queue[m + 1..];
    var q := rest + children;
    forall i | 0 <= i < |q|
      ensures Planned(g, model, q[i], sx, sy, t0)
    {
      if i < m {
        assert q[i] == queue[i];
      } else if i < |rest| {
        assert q[i] == queue[i + 1];
      } else {
        assert q[i] == children[i - |rest|];
        ChildPlanned(g, model, queue[m], children[i - |rest|], sx, sy, t0);
      }
    }
  }

  /** Removing a non-goal state `queue[m]`, expanding it in all four
      directions and appending its children keeps the bookkeeping. */
  lemma FrontierStep(g: Grid, model: CostModel, queue: seq<Node>, m: nat, visited: set<Key>, expanded: set<Key>,
                     e: Expansion, sx: int, sy: int, gx: int, gy: int, t0: int)
    requires Shaped(g) && MoversHavePaths(g)
    requires FrontierOk(g, model, queue, visited, expanded, sx, sy, gx, gy, t0)
    requires m < |queue| && At(queue[m]) != (gx, gy)
    requires e == Expand(g, queue[m], AllDirections(), model, visited)
    ensures FrontierOk(g, model, queue[..m] + queue[m + 1..] + e.children, e.visited,
                       expanded + {KeyOf(queue[m])}, sx, sy, gx, gy, t0)
  {
    var current := queue[m];
    var rest := queue[..m] + queue[m + 1..];
    ExpandAllVisitsSuccessors(g, current, model, visited);
    KeySetSplit(queue, m);
    KeySetConcat(rest, e.children);
    PlannedAfterStep(g, model, queue, m, e.children, sx, sy, t0);
    forall k | k in expanded + {KeyOf(current)}
      ensures SuccessorsVisited(g, k, e.visited)
    {
      if k in expanded {
        SuccessorsVisitedGrow(g, k, visited, e.visited);
      }
    }
  }

  /** Two queues holding the same states, in any order, have the same keys. */
  lemma KeySetPermuted(q1: seq<Node>, q2: seq<Node>)
    requires multiset(q1) == multiset(q2)
    ensures KeySet(q1) == KeySet(q2)
  {
    forall k | k in KeySet(q2)
      ensures k in KeySet(q1)
    {
      var i :| 0 <= i < |q2| && KeyOf(q2[i]) == k;
      assert q2[i] in multiset(q1);
      var j :| 0 <= j < |q1| && q1[j] == q2[i];
    }
    forall k | k in KeySet(q1)
      ensures k in KeySet(q2)
    {
      var i :| 0 <= i < |q1| && KeyOf(q1[i]) == k;
      assert q1[i] in multiset(q2);
      var j :| 0 <= j < |q2| && q2[j] == q1[i];
    }
  }

  /** The bookkeeping depends only on which states are queued, not on where
      the heap keeps them. */
  lemma FrontierPermuted(g: Grid, model: CostModel, q1: seq<Node>, q2: seq<Node>, visited: set<Key>, expanded: set<Key>,
                         sx: int, sy: int, gx: int, gy: int, t0: int)
    requires Shaped(g) && MoversHavePaths(g)
    requires FrontierOk(g, model, q1, visited, expanded, sx, sy, gx, gy, t0)
    requires multiset(q1) == multiset(q2)
    ensures FrontierOk(g, model, q2, visited, expanded, sx, sy, gx, gy, t0)
  {
    KeySetPermuted(q1, q2);
    forall i | 0 <= i < |q2|
      ensures Planned(g, model, q2[i], sx, sy, t0)
    {
      assert q2[i] in multiset(q1);
      var j :| 0 <= j < |q1| && q1[j] == q2[i];
    }
  }

  /** When the queue has run dry, no walk from the start reaches the goal. */
  lemma FrontierExhausted(g: Grid, model: CostModel, visited: set<Key>, expanded: set<Key>,
                          sx: int, sy: int, gx: int, gy: int, t0: int)
    requires Shaped(g) && MoversHavePaths(g)
    requires FrontierOk(g, model, [], visited, expanded, sx, sy, gx, gy, t0)
    ensures forall w :: ValidWalk(g, w, (sx, sy), t0) ==> w[|w| - 1] != (gx, gy)
  {
    assert KeySet([]) == {};
    forall w | ValidWalk(g, w, (sx, sy), t0)
      ensures w[|w| - 1] != (gx, gy)
    {
      ShortWalksMissGoal(g, (sx, sy), t0, (gx, gy), visited, expanded, t0 + |w|);
    }
  }

  /** The breadth-first queue holds states of at most two consecutive time
      steps, in non-decreasing time order. */
  ghost predicate LevelOrdered(queue: seq<Node>) {
    && (forall i, j :: 0 <= i <= j < |queue| ==> queue[i].timeStep <= queue[j].timeStep)
    && (forall i :: 0 <= i < |queue| ==> queue[i].timeStep <= queue[0].timeStep + 1)
  }

  /** Popping the front and appending its children keeps the level order. */
  lemma LevelOrderedStep(g: Grid, queue: seq<Node>, children: seq<Node>)
    requires Shaped(g) && MoversHavePaths(g)
    requires LevelOrdered(queue) && |queue| > 0
    requires forall i :: 0 <= i < |children| ==> children[i].timeStep == queue[0].timeStep + 1
    ensures LevelOrdered(queue[..0] + queue[1..] + children)
  {
    assert queue[..0] + queue[1..] + children == queue[1..] + children;
  }

  /** When the front of a level-ordered queue is at the goal, no walk from the
      start reaches the goal in fewer moves than the front state's path. */
  lemma LevelOrderedFoundIsShortest(g: Grid, queue: seq<Node>, visited: set<Key>, expanded: set<Key>,
                                    sx: int, sy: int, gx: int, gy: int, t0: int)
    requires Shaped(g) && MoversHavePaths(g)
    requires FrontierOk(g, Hops, queue, visited, expanded, sx, sy, gx, gy, t0) && LevelOrdered(queue)
    requires |queue| > 0 && At(queue[0]) == (gx, gy)
    ensures forall w :: ValidWalk(g, w, (sx, sy), t0) && w[|w| - 1] == (gx, gy) ==> |GetPath(queue[0])| <= |w|
  {
    var current := queue[0];
    assert Planned(g, Hops, current, sx, sy, t0);
    ChainIsWalk(g, current);
    assert forall k :: k in visited && k.2 < current.timeStep ==> k in expanded;
    ShortWalksMissGoal(g, (sx, sy), t0, (gx, gy), visited, expanded, current.timeStep);
  }

  /** How an exhaustive search ended. `BudgetSpent` is the explicit bound on
      expansions that stands in for the unbounded loop of the planners. */
  datatype SearchOutcome = Found(node: Node) | NoPath | BudgetSpent

  /** Breadth-first search: FIFO queue, each move costs one. A found state is
      a fewest-moves route to the goal; an exhausted queue means no walk
      from the start ever reaches the goal. */
  method BreadthFirst(g: Grid, sx: int, sy: int, gx: int, gy: int, t0: int, budget: nat) returns (r: SearchOutcome)
    requires WellFormed(g)
    ensures r.Found? ==> Planned(g, Hops, r.node, sx, sy, t0) && At(r.node) == (gx, gy)
    ensures r.Found? ==> forall w :: ValidWalk(g, w, (sx, sy), t0) && w[|w| - 1] == (gx, gy) ==> |GetPath(r.node)| <= |w|
    ensures r.NoPath? ==> forall w :: ValidWalk(g, w, (sx, sy), t0) ==> w[|w| - 1] != (gx, gy)
    ensures (sx, sy) == (gx, gy) ==> r == Found(Node(sx, sy, 0, t0, None))
  {
    var start := Node(sx, sy, 0, t0, None);
    var queue := [start];
    var visited := {KeyOf(start)};
    ghost var expanded: set<Key> := {};
    var fuel := budget;
    FrontierInit(g, Hops, sx, sy, gx, gy, t0);
    while queue != []
      invariant FrontierOk(g, Hops, queue, visited, expanded, sx, sy, gx, gy, t0)
      invariant LevelOrdered(queue)
      invariant (sx, sy) == (gx, gy) ==> queue == [start]
      decreases fuel
    {
      var current := queue[0];
      if current.x == gx && current.y == gy {
        LevelOrderedFoundIsShortest(g, queue, visited, expanded, sx, sy, gx, gy, t0);
        return Found(current);
      }
      if fuel == 0 {
        return BudgetSpent;
      }
      fuel := fuel - 1;
      var e := Expand(g, current, AllDirections(), Hops, visited);
      FrontierStep(g, Hops, queue, 0, visited, expanded, e, sx, sy, gx, gy, t0);
      LevelOrderedStep(g, queue, e.children);
      expanded := expanded + {KeyOf(current)};
      queue := queue[..0] + queue[1..] + e.children;
      visited := e.visited;
    }
    FrontierExhausted(g, Hops, visited, expanded, sx, sy, gx, gy, t0);
    return NoPath;
  }

  // ---------------------------------------------------------------------
  // Best-first search: uniform-cost and A*
  // ---------------------------------------------------------------------

  /** A heuristic estimate `h(x, y, goalX, goalY)` of the remaining cost. */
  type Heuristic = (int, int, int, int) -> int

  /** The heuristic uniform-cost search amounts to. */
  function ZeroHeuristic(x1: int, y1: int, x2: int, y2: int): int {
    0
  }

  /** The priority a state is queued with: its cost plus the estimate. */
  function Priority(n: Node, h: Heuristic, gx: int, gy: int): int {
    n.cost + h(n.x, n.y, gx, gy)
  }

  /** The rank a queued state is compared by: its priority, then its cost.
      Uniform-cost search queues bare nodes, compared by cost alone, which
      is the same order under the zero estimate; A* queues `(priority, node)`
      pairs, compared by priority and then by the node order. */
  function EntryRank(h: Heuristic, gx: int, gy: int): Node -> Rank {
    n => (Priority(n, h, gx, gy), n.cost)
  }

  /** The heap order of queued states. */
  predicate HeapBefore(a: Node, b: Node, h: Heuristic, gx: int, gy: int) {
    Lt(EntryRank(h, gx, gy), a, b)
  }

  /** The estimate drops by at most one per move, the least cost of a move;
      with this the queue pops in non-decreasing priority. */
  ghost predicate Consistent(h: Heuristic, gx: int, gy: int) {
    forall x1, y1, x2, y2 :: Manhattan(x1, y1, x2, y2) == 1 ==> h(x1, y1, gx, gy) <= 1 + h(x2, y2, gx, gy)
  }

  lemma ZeroHeuristicConsistent(gx: int, gy: int)
    ensures Consistent(ZeroHeuristic, gx, gy)
  {
  }

  /** The default A* heuristic is consistent (and hence never overestimates). */
  lemma ManhattanConsistent(gx: int, gy: int)
    ensures Consistent(Manhattan, gx, gy)
  {
    forall x1, y1, x2, y2 | Manhattan(x1, y1, x2, y2) == 1
      ensures Manhattan(x1, y1, gx, gy) <= 1 + Manhattan(x2, y2, gx, gy)
    {
      ManhattanMetric(x1, y1, x2, y2, gx, gy);
    }
  }

  /** The states popped so far have non-decreasing priority, and none still
      queued has a lower priority than the last one popped. */
  ghost predicate PopOrdered(popped: seq<Node>, queue: seq<Node>, h: Heuristic, gx: int, gy: int) {
    && (forall i, j :: 0 <= i < j < |popped| ==> Priority(popped[i], h, gx, gy) <= Priority(popped[j], h, gx, gy))
    && (|popped| > 0 ==> forall i :: 0 <= i < |queue| ==>
          Priority(popped[|popped| - 1], h, gx, gy) <= Priority(queue[i], h, gx, gy))
  }

  /** Popping a least entry and queuing its children keeps the pop order:
      every move costs at least one, which a consistent estimate cannot
      outweigh. */
  lemma PopOrderedStep(g: Grid, popped: seq<Node>, queue: seq<Node>, m: nat, children: seq<Node>,
                       h: Heuristic, gx: int, gy: int)
    requires WellFormed(g) && Consistent(h, gx, gy)
    requires PopOrdered(popped, queue, h, gx, gy)
    requires m < |queue| && forall i :: 0 <= i < |queue| ==> !HeapBefore(queue[i], queue[m], h, gx, gy)
    requires forall i :: 0 <= i < |children| ==> ChildOf(g, TerrainCost, queue[m], children[i])
    ensures PopOrdered(popped + [queue[m]], queue[..m] + queue[m + 1..] + children, h, gx, gy)
  {
    var p := queue[m];
    var rest := queue[..m] + queue[m + 1..];
    var q := rest + children;
    var pq := popped + [p];
    forall i | 0 <= i < |q|
      ensures Priority(p, h, gx, gy) <= Priority(q[i], h, gx, gy)
    {
      if i < m {
        assert q[i] == queue[i];
      } else if i < |rest| {
        assert q[i] == queue[i + 1];
      } else {
        var c := children[i - |rest|];
        assert q[i] == c;
        assert ChildOf(g, TerrainCost, p, c);
        assert GetCost(g, c.x, c.y) >= 1;
        assert h(p.x, p.y, gx, gy) <= 1 + h(c.x, c.y, gx, gy);
      }
    }
    forall i, j | 0 <= i < j < |pq|
      ensures Priority(pq[i], h, gx, gy) <= Priority(pq[j], h, gx, gy)
    {
      if j == |popped| && i < |popped| {
        assert Priority(pq[i], h, gx, gy) <= Priority(popped[|popped| - 1], h, gx, gy);
      }
    }
  }

  /** The pop order depends only on which states are queued. */
  lemma PopOrderedPermuted(popped: seq<Node>, q1: seq<Node>, q2: seq<Node>, h: Heuristic, gx: int, gy: int)
    requires PopOrdered(popped, q1, h, gx, gy) && multiset(q1) == multiset(q2)
    ensures PopOrdered(popped, q2, h, gx, gy)
  {
    forall i | 0 <= i < |q2| && |popped| > 0
      ensures Priority(popped[|popped| - 1], h, gx, gy) <= Priority(q2[i], h, gx, gy)
    {
      assert q2[i] in multiset(q1);
      var j :| 0 <= j < |q1| && q1[j] == q2[i];
    }
  }

  /** `FrontierStep` at the root of the queue. */
  lemma FrontierPopRoot(g: Grid, queue: seq<Node>, visited: set<Key>, expanded: set<Key>, e: Expansion,
                        sx: int, sy: int, gx: int, gy: int, t0: int)
    requires WellFormed(g)
    requires FrontierOk(g, TerrainCost, queue, visited, expanded, sx, sy, gx, gy, t0)
    requires |queue| > 0 && At(queue[0]) != (gx, gy)
    requires e == Expand(g, queue[0], AllDirections(), TerrainCost, visited)
    ensures FrontierOk(g, TerrainCost, queue[1..] + e.children, e.visited, expanded + {KeyOf(queue[0])},
                       sx, sy, gx, gy, t0)
  {
    FrontierStep(g, TerrainCost, queue, 0, visited, expanded, e, sx, sy, gx, gy, t0);
    assert queue[..0] + queue[0 + 1..] + e.children == queue[1..] + e.children;
  }

  /** Popping the root and pushing the children leaves the entries after the
      root, and the children. */
  lemma RootPushedEntries<T>(queue: seq<T>, rest: seq<T>, next: seq<T>, children: seq<T>)
    requires |queue| > 0 && multiset(rest) == multiset(queue[1..])
    requires multiset(next) == multiset(rest) + multiset(children)
    ensures multiset(next) == multiset(queue[1..] + children)
  {
  }

  /** One round of best-first search keeps the bookkeeping: popping the
      root of the heap, expanding it and pushing its children, wherever the
      heap puts the entries. */
  lemma HeapStepFrontier(g: Grid, queue: seq<Node>, rest: seq<Node>, next: seq<Node>,
                         visited: set<Key>, expanded: set<Key>, e: Expansion,
                         sx: int, sy: int, gx: int, gy: int, t0: int)
    requires WellFormed(g)
    requires FrontierOk(g, TerrainCost, queue, visited, expanded, sx, sy, gx, gy, t0)
    requires |queue| > 0 && At(queue[0]) != (gx, gy)
    requires multiset(rest) == multiset(queue[1..])
    requires e == Expand(g, queue[0], AllDirections(), TerrainCost, visited)
    requires multiset(next) == multiset(rest) + multiset(e.children)
    ensures FrontierOk(g, TerrainCost, next, e.visited, expanded + {KeyOf(queue[0])}, sx, sy, gx, gy, t0)
  {
    var q1 := queue[1..] + e.children;
    FrontierPopRoot(g, queue, visited, expanded, e, sx, sy, gx, gy, t0);
    RootPushedEntries(queue, rest, next, e.children);
    FrontierPermuted(g, TerrainCost, q1, next, e.visited, expanded + {KeyOf(queue[0])}, sx, sy, gx, gy, t0);
  }

  /** Popping the front of a pop-ordered queue keeps the pops in
      non-decreasing priority. */
  lemma PopOrderedExtend(popped: seq<Node>, queue: seq<Node>, h: Heuristic, gx: int, gy: int)
    requires PopOrdered(popped, queue, h, gx, gy) && |queue| > 0
    ensures forall i, j :: 0 <= i < j < |popped| + 1 ==>
              Priority((popped + [queue[0]])[i], h, gx, gy) <= Priority((popped + [queue[0]])[j], h, gx, gy)
  {
    var pq := popped + [queue[0]];
    forall i, j | 0 <= i < j < |pq|
      ensures Priority(pq[i], h, gx, gy) <= Priority(pq[j], h, gx, gy)
    {
      if j == |popped| && i < |popped| {
        assert Priority(pq[i], h, gx, gy) <= Priority(popped[|popped| - 1], h, gx, gy);
      }
    }
  }

  /** One round of best-first search keeps the pop order under a consistent
      estimate. */
  lemma HeapStepOrder(g: Grid, queue: seq<Node>, rest: seq<Node>, next: seq<Node>, popped: seq<Node>,
                      children: seq<Node>, h: Heuristic, gx: int, gy: int)
    requires WellFormed(g) && Consistent(h, gx, gy)
    requires PopOrdered(popped, queue, h, gx, gy)
    requires |queue| > 0 && forall i :: 0 <= i < |queue| ==> !HeapBefore(queue[i], queue[0], h, gx, gy)
    requires forall i :: 0 <= i < |children| ==> ChildOf(g, TerrainCost, queue[0], children[i])
    requires multiset(rest) == multiset(queue[1..])
    requires multiset(next) == multiset(rest) + multiset(children)
    ensures PopOrdered(popped + [queue[0]], next, h, gx, gy)
  {
    assert queue[..0] + queue[1..] + children == queue[1..] + children;
    RootPushedEntries(queue, rest, next, children);
    PopOrderedStep(g, popped, queue, 0, children, h, gx, gy);
    PopOrderedPermuted(popped + [queue[0]], queue[1..] + children, next, h, gx, gy);
  }

  /** Best-first search over a heap ordered by `HeapBefore`: A* with estimate
      `h`, and uniform-cost search with the zero estimate. Besides the outcome
      it reports the states in the order they were popped. The children are
      pushed after the expansion rather than during it; pushing touches
      neither the grid nor the visited set, so the heap ends up the same. */
  method BestFirst(g: Grid, sx: int, sy: int, gx: int, gy: int, t0: int, h: Heuristic, budget: nat)
    returns (r: SearchOutcome, popped: seq<Node>)
    requires WellFormed(g)
    ensures r.Found? ==> Planned(g, TerrainCost, r.node, sx, sy, t0) && At(r.node) == (gx, gy)
    ensures r.Found? ==> |popped| > 0 && popped[|popped| - 1] == r.node
    ensures r.NoPath? ==> forall w :: ValidWalk(g, w, (sx, sy), t0) ==> w[|w| - 1] != (gx, gy)
    ensures (sx, sy) == (gx, gy) ==> r == Found(Node(sx, sy, 0, t0, None)) && popped == [r.node]
    ensures forall i :: 0 <= i < |popped| ==> Planned(g, TerrainCost, popped[i], sx, sy, t0)
    ensures Consistent(h, gx, gy) ==>
              forall i, j :: 0 <= i < j < |popped| ==> Priority(popped[i], h, gx, gy) <= Priority(popped[j], h, gx, gy)
  {
    var start := Node(sx, sy, 0, t0, None);
    var queue := [start];
    var visited := {KeyOf(start)};
    ghost var expanded: set<Key> := {};
    popped := [];
    var fuel := budget;
    FrontierInit(g, TerrainCost, sx, sy, gx, gy, t0);
    while queue != []
      invariant FrontierOk(g, TerrainCost, queue, visited, expanded, sx, sy, gx, gy, t0)
      invariant IsHeap(EntryRank(h, gx, gy), queue)
      invariant forall i :: 0 <= i < |popped| ==> Planned(g, TerrainCost, popped[i], sx, sy, t0)
      invariant Consistent(h, gx, gy) ==> PopOrdered(popped, queue, h, gx, gy)
      invariant (sx, sy) == (gx, gy) ==> queue == [start] && popped == []
      decreases fuel
    {
      var current, rest := HeapPop(EntryRank(h, gx, gy), queue);
      ghost var before := popped;
      if Consistent(h, gx, gy) {
        PopOrderedExtend(popped, queue, h, gx, gy);
      }
      popped := popped + [current];
      if current.x == gx && current.y == gy {
        return Found(current), popped;
      }
      if fuel == 0 {
        return BudgetSpent, popped;
      }
      fuel := fuel - 1;
      var e := Expand(g, current, AllDirections(), TerrainCost, visited);
      var next := HeapPushAll(EntryRank(h, gx, gy), rest, e.children);
      HeapStepFrontier(g, queue, rest, next, visited, expanded, e, sx, sy, gx, gy, t0);
      if Consistent(h, gx, gy) {
        HeapStepOrder(g, queue, rest, next, before, e.children, h, gx, gy);
      }
      expanded := expanded + {KeyOf(current)};
      queue := next;
      visited := e.visited;
    }
    FrontierExhausted(g, TerrainCost, visited, expanded, sx, sy, gx, gy, t0);
    return NoPath, popped;
  }

  // ---------------------------------------------------------------------
  // The planners' interface: a goal state or None
  // ---------------------------------------------------------------------

  /** A result state: a well-formed chain from the start at `t0` with cost
      zero, ending at the goal. */
  predicate Route(g: Grid, n: Node, sx: int, sy: int, gx: int, gy: int, t0: int)
    requires Shaped(g) && MoversHavePaths(g)
  {
    ChainOk(g, n) && RootedAt(n, sx, sy, t0) && At(n) == (gx, gy)
  }

  /** BFSPlanner.plan: the goal state of a fewest-moves route whose cost is
      its number of moves. */
  method BfsPlan(g: Grid, sx: int, sy: int, gx: int, gy: int, t0: int, budget: nat) returns (r: Option<Node>)
    requires WellFormed(g)
    ensures r.Some? ==> Route(g, r.value, sx, sy, gx, gy, t0)
    ensures r.Some? ==> r.value.cost == |GetPath(r.value)| - 1
    ensures r.Some? ==> forall w :: ValidWalk(g, w, (sx, sy), t0) && w[|w| - 1] == (gx, gy) ==> |GetPath(r.value)| <= |w|
    ensures (sx, sy) == (gx, gy) ==> r == Some(Node(sx, sy, 0, t0, None))
  {
    var outcome := BreadthFirst(g, sx, sy, gx, gy, t0, budget);
    if outcome.Found? {
      HopCountedIsMoves(outcome.node);
      r := Some(outcome.node);
    } else {
      r := None;
    }
  }

  /** UCSPlanner.plan: the goal state of a route whose cost is its terrain cost. */
  method UcsPlan(g: Grid, sx: int, sy: int, gx: int, gy: int, t0: int, budget: nat) returns (r: Option<Node>)
    requires WellFormed(g)
    ensures r.Some? ==> Route(g, r.value, sx, sy, gx, gy, t0)
    ensures r.Some? ==> CostAccounted(g, r.value)
    ensures r.Some? ==> CellsInBounds(g, GetPath(r.value)) && r.value.cost == PathCost(g, GetPath(r.value))
    ensures (sx, sy) == (gx, gy) ==> r == Some(Node(sx, sy, 0, t0, None))
  {
    var outcome, _ := BestFirst(g, sx, sy, gx, gy, t0, ZeroHeuristic, budget);
    if outcome.Found? {
      CostAccountedIsPathCost(g, outcome.node);
      r := Some(outcome.node);
    } else {
      r := None;
    }
  }

  /** AStarPlanner.plan with estimate `h`: the goal state of a route whose
      cost is its terrain cost. */
  method AStarPlan(g: Grid, sx: int, sy: int, gx: int, gy: int, t0: int, h: Heuristic, budget: nat) returns (r: Option<Node>)
    requires WellFormed(g)
    ensures r.Some? ==> Route(g, r.value, sx, sy, gx, gy, t0)
    ensures r.Some? ==> CostAccounted(g, r.value)
    ensures r.Some? ==> CellsInBounds(g, GetPath(r.value)) && r.value.cost == PathCost(g, GetPath(r.value))
    ensures (sx, sy) == (gx, gy) ==> r == Some(Node(sx, sy, 0, t0, None))
  {
    var outcome, _ := BestFirst(g, sx, sy, gx, gy, t0, h, budget);
    if outcome.Found? {
      CostAccountedIsPathCost(g, outcome.node);
      r := Some(outcome.node);
    } else {
      r := None;
    }
  }
}
